=== FILE: README.md ===
# Toolforge jobs-framework emailer, modelled in Dafny

The emailer watches Kubernetes pod events in Toolforge tool namespaces. It
keeps the events that a job's owner asked to hear about, and aggregates
them per tool account and job. It periodically turns each account's batch
into one notification, and hands queued notifications to the mail server,
at most `max(task_send_emails_max, 1)` per round: a maximum of 0 or less
still lets one notification through each round. A configmap can retune it
while it runs. The code exists twice: as split modules (`events.py`, `cfg.py`,
`compose.py`, `send.py`) and as the older single-file `emailer.py`.

The model has these parts:

- `Pods`: the parts of a pod watch event the emailer reads, and the label names.
- `Admission`: the relevance filter and the per-job notification policy.
  The verdict records which check rejected an event. The first failing
  check, in source order, wins.
- `Dicts`: Python's insertion-ordered dict as an association list.
  `Put` is item assignment and `Remove` is `del`.
- `Batches`: the `emailevents` dictionary, user -> job -> messages, as the
  type `EmailEvents`.
- `Events`: the current `process_event`, and the watch loop over a finite
  stream of events.
- `Watching`: the shared fold of that loop. It applies the filter, then
  the processing step, then advances the resume cursor. When the
  processing step raises, the watch task dies.
- `Config`: the `CFG_DICT` defaults, the known-keys-only merge of
  configmap data, the log-level choice, and the version-gated configmap
  poller.
- `Compose`: the current `compose_email` text, and one cycle of
  `task_compose_emails`.
- `Send`: the dispatcher loop of `task_send_emails`, as a counter state
  machine. Its passes are grouped into bursts between sleeps.
- `Legacy`: the parts of `emailer.py` that differ from the split modules:
  - a finished-phase-only filter with no emails-label check;
  - a `process_event` that reads the container's terminated state;
  - the user -> job dictionary composer and its snapshot drain.

  Its send loop (emailer/emailer.py:120-140) runs the same counter logic as
  the split modules' loop. Its configuration merge (emailer/emailer.py:322-333)
  and configmap poller (emailer/emailer.py:336-360) follow the same steps as
  theirs. They are covered by `Send` and `Config`.
- `FixtureScenarios`: the pod sequences of the test fixture generator,
  fed through the current watch loop.

The code follows these rules, and so does the model:

- The code does no de-duplication of events: processing an event
  twice caches it twice (`Batches.NoDeduplication`,
  `Events.ProcessTwiceKeepsBoth`).
- Relevance is the fixed chain of checks in `pod_event_is_relevant`.
- Composed notifications are queued at the back of a FIFO queue and sent
  in rounds. Each batch is deleted from the cache right after its
  notification is queued (emailer/compose.py:64-65, emailer/emailer.py:189-190),
  and the composer removes nothing else.
- The current `compose.py` iterates a `Cache` object, but that class is
  defined outside the files modelled here. So the cycle takes the sequence
  that the iteration yields, and the `delete` operation, as parameters.

## Model

| member | source | states |
|---|---|---|
| Admission.UserRequestedNotifications | emailer/events.py:46-63 | true exactly when the policy named by the emails label admits the phase: "all" admits every phase, "onfinish" admits Succeeded and Failed, "onfailure" admits Failed, and "none" or any other value admits nothing |
| Admission.Screen | emailer/events.py:72-102 | no rejection exactly when the namespace, the three ownership labels, the event type and the deletion marker all pass; otherwise the reason is a failing check and every check before it passes |
| Admission.Relevance | emailer/events.py:66-116 | Relevant exactly when every check passes; an Ignored verdict names a check that fails, and every earlier check passes, so the first rejection wins |
| Admission.RelevantIff | emailer/events.py:72-113 | relevant if and only if: the namespace starts with "tool-"; toolforge is "tool"; managed-by is "toolforge-jobs-framework"; the component is jobs, cronjobs or deployments (missing labels read as ""); the type is MODIFIED; there is no deletion timestamp; the phase is Running, Succeeded or Failed; and the emails policy admits the phase |
| Admission.MissingOwnershipLabelRejected | emailer/events.py:78-93 | a pod missing the toolforge, managed-by or component label is never relevant |
| Admission.PendingNeverRelevant | emailer/events.py:104-108 | a Pending pod is rejected at the phase check or earlier, whatever its emails label says |
| Admission.OptedOutUnlessKnownPolicy | emailer/events.py:110-113 | when the emails label is missing (read as "none") or is not one of all, onfinish and onfailure, the event is never relevant |
| Admission.PolicyNesting | emailer/events.py:46-63 | the admitted phase sets nest (onfailure within onfinish within all); "all" admits everything and "none" nothing; onfinish admits exactly Succeeded and Failed, and onfailure exactly Failed |
| Dicts.Put | emailer/events.py:32-36 | after `d[k] = v`, `k` reads back `v` and every other key reads as before; an existing key keeps its place, a new key is appended at the end; unique keys stay unique |
| Dicts.Remove | emailer/emailer.py:190 | `del d[k]` needs `k` to be stored (Python raises `KeyError` otherwise); afterwards `k` is absent, every other key reads as before, the other entries keep their order with only `k`'s entry cut out, and keys stay unique |
| Batches.Touch | emailer/events.py:32-36 | the get-or-create steps leave an entry for the user and job; no message list changes; existing entries survive; other users' tables are untouched; a missing user key goes after the existing users and a missing job key after the user's existing jobs, which keep their order, and no other key appears; the message total is unchanged; well-formedness is kept |
| Batches.Append | emailer/events.py:38-39 | the user and job's list becomes its old contents (or empty) followed by the message; every other list is unchanged; other users' tables are untouched; a missing user or job key goes last and the existing keys keep their order; the message total grows by one; well-formedness is kept |
| Batches.NoDeduplication | emailer/events.py:39 | appending the same message twice leaves both copies, and the total grows by two |
| Events.ProcessEvent | emailer/events.py:24-43 | succeeds exactly when the created-by and name labels are present; a missing label raises and leaves the cache unchanged; on success the rendered event is appended to that user and job's list, every other list and every other user's table is unchanged, a new user or job key goes last with the existing keys in their order, and the total grows by one |
| Events.Watch | emailer/events.py:136-147 | the loop keeps watching exactly when every relevant event carries the created-by and name labels; when it dies, it dies at the first relevant event missing one of them |
| Events.WatchCountsRelevant | emailer/events.py:136-147 | when every relevant event carries both labels, the loop never dies; the cursor ends at the last event's resource version; the cache total grows by exactly the number of relevant events |
| Events.IrrelevantEventsLeaveCache | emailer/events.py:142-145 | a stream of irrelevant events leaves the cache as it was and never kills the loop |
| Events.ProcessTwiceKeepsBoth | emailer/events.py:32-39 | processing one event twice caches its message twice, in order |
| Watching.Consume | emailer/events.py:136-147 | after a stream finishes, the cursor is the last event's resource version, relevant or not; an empty stream changes nothing; the loop can die only at an admitted event, with the cursor left at the version of the event before it |
| Watching.ConsumeStopsAtFirstFailure | emailer/events.py:142-145 | when whether caching raises depends only on the event, the loop dies at the first admitted event whose caching raises, and keeps watching exactly when there is none |
| Watching.ConsumeCachesAdmitted | emailer/events.py:142-145 | the loop's cache is the result of processing exactly the admitted events, in stream order; the loop dies exactly when that processing fails |
| FixtureScenarios.FakeEventRelevance | tests/fake_k8s.py:42-84 | a generated pod in an active phase is relevant exactly when its emails policy admits the phase |
| FixtureScenarios.SequenceCount | tests/fake_k8s.py:86-162 | the Pending, Running and finished sequence caches one message for Running if the policy admits it, plus one for the final phase if admitted, and none for Pending |
| FixtureScenarios.FixtureCounts | tests/fake_k8s.py:86-162 | both sequences cache 2 messages under "all" and 1 under "onfinish"; "onfailure" caches 0 for the good sequence and 1 for the failed one; "none" caches 0 |
| Config.Reconfigure | emailer/cfg.py:70-77 | the set of configuration keys never changes; each known key takes the configmap's value when present and keeps its old value otherwise; unknown configmap keys are ignored |
| Config.ReconfigureIdempotent | emailer/cfg.py:71-76 | applying the same configmap data twice gives the same configuration as applying it once |
| Config.ReconfigureKeepsComplete | emailer/cfg.py:71-76 | a configuration holding all the default keys still holds them after a merge |
| Config.LogLevelOf | emailer/cfg.py:62-64 | the level is DEBUG exactly when `debug` is "yes", and INFO for every other value |
| Config.LogLevelAfterReconfigure | emailer/cfg.py:62-64 | after a merge, the level is DEBUG exactly when the configmap's debug value is "yes"; without a debug entry, the level is unchanged |
| Config.PollStep | emailer/cfg.py:89-104 | a failed read changes nothing; a version no newer than the last one seen changes nothing; a strictly newer version is recorded and its data merged; the last-seen version never decreases and the key set is kept |
| Config.MaxVersion | emailer/cfg.py:101-104 | the largest version read: no successful read and not the start value is above it, and it is either the start value or one of the versions read |
| Config.PollRunMonotone | emailer/cfg.py:84-106 | over any run of reads, the key set is kept, the last-seen version is the largest version seen (or the start value), it never decreases, and with no newer version nothing changes |
| Config.PollFromStart | emailer/cfg.py:82-106 | the poller starts from the defaults, which hold every tunable, at version 0; after any run of reads every tunable is still present and the last applied version is the largest one read, or 0 |
| Compose.AddressRoundTrip | emailer/compose.py:27-29 | the address is prefix, ".", user, "@", domain: reading the user back out of it with the same configuration gives the user |
| Compose.AddressInjective | emailer/compose.py:27-29 | two different users never get the same address under one configuration |
| Compose.SubjectRoundTrip | emailer/compose.py:25-30 | the count written into the subject line can be parsed back out |
| Compose.SubjectReadsOnlyItsOwn | emailer/compose.py:25-30 | a subject line that reads as a count n is exactly the line written for n; a zero-padded count does not read |
| Compose.ComposeEmail | emailer/compose.py:24-55 | the notification's address names the batch's user: reading it back with the same configuration gives that user |
| Compose.ComposeEmailReadsBack | emailer/compose.py:24-55 | the notification's subject reports the number of jobs; its body opens with the greeting line and closes with the footer, word for word |
| Compose.BodyReportsJob | emailer/compose.py:32-51 | the body holds each job's section, including a job with no events, between the greeting and the sections of the jobs before it, and the sections of the jobs after it and the footer |
| Compose.SectionLineAt | emailer/compose.py:34-38 | a job's section opens with its heading, which states the job's name, type, emails setting and event count, and then gives event k its own "  -- " line, between the lines of earlier and later events |
| Compose.SectionsAppend | emailer/compose.py:33-38 | the sections of two runs of jobs are the two runs' sections, in order |
| Compose.EventLinesAppend | emailer/compose.py:37-38 | the event lines of two runs of events are the two runs' lines, in order |
| Compose.EventLineAt | emailer/compose.py:37-38 | event k's line comes after the lines of all earlier events and before those of all later ones |
| Compose.ComposeAllAt | emailer/compose.py:63-64 | entry i of the composed list is the notification for the i-th batch visited |
| Compose.ComposeCycle | emailer/compose.py:58-71 | the queue keeps its old entries in front and gains one notification per visited batch, in visiting order; each visited batch is passed to `delete` in turn; the reported count is the number added; it is announced only when positive |
| Send.Step | emailer/send.py:59-75 | an empty queue dispatches nothing, resets the counter and sleeps; otherwise the front notification is dispatched and removed, and the loop sleeps (resetting the counter) exactly when the count reaches the maximum |
| Send.Burst | emailer/send.py:56-75 | between two sleeps, the first min(queue length, max(maximum - sent, 1)) notifications are dispatched in queue order; the rest stay queued in order; the counter is back at 0 |
| Send.BurstFromReset | emailer/send.py:59-75 | a burst starting from a reset counter sends min(queue length, max(maximum, 1)) notifications |
| Send.TenOfTwentyFive | emailer/send.py:66-75 | with a maximum of 10 and 25 queued, one burst sends the first 10 and leaves the other 15 in their order |
| Send.DrainInOrder | emailer/send.py:65-69 | bursts run back to back dispatch every queued notification exactly once, in queue order; none is requeued |
| Send.DrainBurstCount | emailer/send.py:71-75 | draining a queue of n takes ceil(n / max(maximum, 1)) bursts |
| Legacy.Relevance | emailer/emailer.py:241-286 | Relevant exactly when the shared checks pass and the phase is Succeeded or Failed; an Ignored verdict names the first failing check, and it is never the emails policy |
| Legacy.SameAsOnFinish | emailer/emailer.py:279-283 | the legacy filter accepts exactly what the current filter accepts from the same pod labelled "onfinish" |
| Legacy.EventMessage | emailer/emailer.py:233-236 | the cached text opens by naming the pod and its start time, and closes with the termination reason and message |
| Legacy.ProcessEvent | emailer/emailer.py:203-238 | a missing user or job label raises before any change; otherwise the entries are created first. When the first container has terminated, its message is appended and the total grows by one; when it has not, the call raises and leaves the new, empty entry behind; every other list and every other user's table is unchanged, and a new user or job key goes last with the existing keys in their order |
| Legacy.FailedProcessLeavesEmptyEntry | emailer/emailer.py:216-231 | an event for a new job whose container has not terminated fails, but leaves an empty message list for that job |
| Legacy.Watch | emailer/emailer.py:308-319 | the legacy loop keeps watching exactly when every relevant event carries both labels and a terminated first container; when it dies, it dies at the first relevant event that does not |
| Legacy.UnfinishedContainerStopsWatch | emailer/emailer.py:314-317 | a relevant event whose container has not terminated kills the legacy watch loop at that event; the cursor is not advanced, the empty entry stays, and the total is unchanged |
| Legacy.ComposeEmail | emailer/emailer.py:143-179 | the legacy address names the user: reading it back with the same configuration gives that user |
| Legacy.ComposeEmailReadsBack | emailer/emailer.py:143-179 | the subject reports the number of job keys; the body opens with the greeting and closes with the legacy footer, word for word |
| Legacy.ComposeAllAt | emailer/emailer.py:188-189 | entry i of the composed list is the legacy notification for the i-th user, in dictionary order |
| Legacy.TakeUser | emailer/emailer.py:189-190 | reading the first user's jobs and deleting that user leaves the rest of the dictionary, still with unique keys |
| Legacy.ComposeCycle | emailer/emailer.py:182-198 | after one cycle the dictionary is empty; the queue keeps its old entries and gains one notification per user present at the start, in dictionary order; the count is the number of users; it is announced only when there were some |

## Left out

- Kubernetes API calls (`list_pod_for_all_namespaces`, the watch stream, `read_namespaced_config_map`) are network I/O. The watch stream is a finite input sequence, and a configmap read is a `Fetch` input: either a failure or a version and its data.
- SMTP delivery (`send_email` in both versions) is I/O. A dispatched notification is only reported, and delivery cannot touch the queue. This includes the legacy key `send_emails_fo_real` (emailer/emailer.py:107). That lookup raises inside the `try`, so the legacy code never sends for real.
- asyncio scheduling (sleeps, `to_thread`, task creation) is out. Each loop pass is one atomic step, and the model holds no state shared between tasks.
- `emailer/main.py` and `emailer/webserver.py` are out. They are wiring and a health endpoint.
- Sharing of the cache between tasks: emailer/main.py:53-59 hands one `Cache` object, not a dict, to both `task_watch_pods` and `task_compose_emails`. `Cache` is not part of this model, so the `Batches` dictionary that `Events.ProcessEvent` fills and the abstract cache that `Compose.ComposeCycle` drains are separate states here, and nothing connects them.
- Watching.Consume: pod labels are always a map. The Kubernetes client gives `None` for a pod with no labels; `labels.get` then raises inside the filter (emailer/events.py:79, emailer/emailer.py:254) and kills the watch task at an event that was not admitted. The claim that the loop dies only at an admitted event holds for pods that carry a labels map.
- Config.PollStep: configmap data is always a map. For a configmap with no data the client gives `None`, and `reconfigure` raises at emailer/cfg.py:71 after `last_seen_version` has already moved (emailer/cfg.py:103-104), which kills the poller task. The model only has the runs in which the data is present.
- Legacy.EventMessage: the contract fixes how the text opens and closes. The middle part, with the restart count, the finish time and the exit code, is given by the definition alone.
- Logging is out. So is the legacy warning at emailer/emailer.py:138-139, which resets the counter before printing it and so always reports 0. Of the logging, only the "new pending emails" condition is kept, as `announced`.
- `int()` parsing of configuration strings is out. The send maximum and the configmap version come in as integers that are already parsed.
- Compose.ComposeCycle: `Cache`, `UserJobs`, `Email` and the job types are not part of this model. The cycle takes what iterating the cache yields as a given sequence, and `delete` as a function parameter. It therefore does not claim that the cache is empty afterwards.
- Events.ProcessEvent: `compose.event2message` is not part of this model. It is the parameter `render`, assumed not to raise.
- Legacy.ProcessEvent: a pod whose container-status list is `None` and one whose list is empty both make the call raise at the same point. The model does not tell them apart.
- Send.Burst: the maximum is read once per burst. A configuration change in the middle of a burst is not modelled.
- The pod phase, label values and resource versions are plain strings. The poller's configmap version is an unbounded integer, as in Python.
- The test suite's `Cache.add_event` and `event_early_filter` come from a version of the code outside this model. Its expectations about `Cache` are not modelled. The fixture pod generator is modelled, through `FixtureScenarios`.

=== FILE: admission.dfy ===
/**
 * Which pod events deserve a notification (emailer/events.py).
 *
 * The filter is a chain of checks where the first failing one decides the
 * outcome. The model returns that check as the rejection reason, so the
 * contract can say both that every check passes exactly when the event is
 * relevant and which failure is reported when several fail.
 */
module Admission {
  import opened Options
  import opened Text
  import opened Pods

  /** The notification policy a job asks for through its emails label. */
  datatype Policy = NoEmails | OnFailure | OnFinish | AllEvents

  /** Reads the emails label value. Anything unrecognised means no emails. */
  function PolicyOf(emails: string): Policy {
    if emails == "all" then AllEvents
    else if emails == "onfinish" then OnFinish
    else if emails == "onfailure" then OnFailure
    else NoEmails
  }

  /** The pod phases each policy wants to hear about. */
  predicate Admits(policy: Policy, phase: string) {
    match policy
    case NoEmails => false
    case OnFailure => phase == "Failed"
    case OnFinish => phase == "Succeeded" || phase == "Failed"
    case AllEvents => true
  }

  /** The decision table applied to the emails label value and the pod phase. */
  function UserRequestedNotifications(phase: string, emails: string): (r: bool)
    ensures r <==> Admits(PolicyOf(emails), phase)
  {
    if emails == "none" then false
    else if emails == "all" then true
    else if emails == "onfinish" && (phase == "Succeeded" || phase == "Failed") then true
    else if emails == "onfailure" && phase == "Failed" then true
    else false
  }

  /** The phases that can ever be relevant. Pending and unknown phases are not among them. */
  predicate ActivePhase(phase: string) {
    phase == "Running" || phase == "Succeeded" || phase == "Failed"
  }

  /** The emails label, defaulting to "none" when the job did not set one. */
  function EmailsOf(e: WatchEvent): string {
    Label(e.pod, EmailsLabel, "none")
  }

  /** Why an event was ignored, one reason per check, in the order they are made. */
  datatype Reason =
    | ForeignNamespace
    | NotToolforgeTool
    | NotJobsFramework
    | ForeignComponent
    | NotModified
    | BeingDeleted
    | PhaseNotRelevant
    | OptedOut

  datatype Verdict = Relevant | Ignored(reason: Reason)

  /** The position of a check in the chain. */
  function Rank(x: Reason): nat {
    match x
    case ForeignNamespace => 0
    case NotToolforgeTool => 1
    case NotJobsFramework => 2
    case ForeignComponent => 3
    case NotModified => 4
    case BeingDeleted => 5
    case PhaseNotRelevant => 6
    case OptedOut => 7
  }

  /** Whether `e` gets past the check that would reject it for reason `x`. */
  predicate Passes(e: WatchEvent, x: Reason) {
    match x
    case ForeignNamespace => StartsWith(e.pod.namespace, "tool-")
    case NotToolforgeTool => Label(e.pod, ToolforgeLabel, "") == "tool"
    case NotJobsFramework => Label(e.pod, ManagedByLabel, "") == "toolforge-jobs-framework"
    case ForeignComponent => Label(e.pod, ComponentLabel, "") in ["jobs", "cronjobs", "deployments"]
    case NotModified => e.eventType == "MODIFIED"
    case BeingDeleted => e.pod.deletionTimestamp.None?
    case PhaseNotRelevant => ActivePhase(e.pod.phase)
    case OptedOut => UserRequestedNotifications(e.pod.phase, EmailsOf(e))
  }

  /**
   * The checks both versions of the filter share: namespace, the three
   * ownership labels, the change type and the deletion marker.
   */
  function Screen(e: WatchEvent): (r: Option<Reason>)
    ensures r.None? <==> forall x :: Rank(x) < 6 ==> Passes(e, x)
    ensures r.Some? ==> Rank(r.value) < 6 && !Passes(e, r.value)
    ensures r.Some? ==> forall y :: Rank(y) < Rank(r.value) ==> Passes(e, y)
  {
    if !StartsWith(e.pod.namespace, "tool-") then Some(ForeignNamespace)
    else if Label(e.pod, ToolforgeLabel, "") != "tool" then Some(NotToolforgeTool)
    else if Label(e.pod, ManagedByLabel, "") != "toolforge-jobs-framework" then Some(NotJobsFramework)
    else if Label(e.pod, ComponentLabel, "") !in ["jobs", "cronjobs", "deployments"] then Some(ForeignComponent)
    else if e.eventType != "MODIFIED" then Some(NotModified)
    else if e.pod.deletionTimestamp.Some? then Some(BeingDeleted)
    else None
  }

  /** `pod_event_is_relevant`, reporting the first check that failed. */
  function Relevance(e: WatchEvent): (r: Verdict)
    ensures r.Relevant? <==> forall x :: Passes(e, x)
    ensures r.Ignored? ==> !Passes(e, r.reason)
    ensures r.Ignored? ==> forall y :: Rank(y) < Rank(r.reason) ==> Passes(e, y)
  {
    match Screen(e)
    case Some(x) => Ignored(x)
    case None =>
      if !ActivePhase(e.pod.phase) then
        assert !Passes(e, PhaseNotRelevant);
        Ignored(PhaseNotRelevant)
      else if !UserRequestedNotifications(e.pod.phase, EmailsOf(e)) then
        assert !Passes(e, OptedOut);
        Ignored(OptedOut)
      else Relevant
  }

  predicate IsRelevant(e: WatchEvent) {
    Relevance(e).Relevant?
  }

  /** Spelled out: the conditions under which an event is relevant. */
  lemma RelevantIff(e: WatchEvent)
    ensures IsRelevant(e) <==>
      && StartsWith(e.pod.namespace, "tool-")
      && Label(e.pod, ToolforgeLabel, "") == "tool"
      && Label(e.pod, ManagedByLabel, "") == "toolforge-jobs-framework"
      && Label(e.pod, ComponentLabel, "") in ["jobs", "cronjobs", "deployments"]
      && e.eventType == "MODIFIED"
      && e.pod.deletionTimestamp.None?
      && ActivePhase(e.pod.phase)
      && Admits(PolicyOf(EmailsOf(e)), e.pod.phase)
  {
    if IsRelevant(e) {
      assert Passes(e, ForeignNamespace) && Passes(e, NotToolforgeTool) && Passes(e, NotJobsFramework);
      assert Passes(e, ForeignComponent) && Passes(e, NotModified) && Passes(e, BeingDeleted);
      assert Passes(e, PhaseNotRelevant) && Passes(e, OptedOut);
    }
  }

  /** A pod missing any of the three ownership labels is never relevant. */
  lemma MissingOwnershipLabelRejected(e: WatchEvent)
    requires ToolforgeLabel !in e.pod.labels || ManagedByLabel !in e.pod.labels
          || ComponentLabel !in e.pod.labels
    ensures !IsRelevant(e)
  {
    RelevantIff(e);
  }

  /**
   * Pending pods are ignored whatever the emails label says, even "all": the
   * rejection comes at the phase check at the latest, before the label is read.
   */
  lemma PendingNeverRelevant(e: WatchEvent)
    requires e.pod.phase == "Pending"
    ensures Relevance(e).Ignored? && Rank(Relevance(e).reason) <= Rank(PhaseNotRelevant)
  {
    assert !Passes(e, PhaseNotRelevant);
  }

  /** A job without an emails label, or with "none" or an unknown value, never gets an email. */
  lemma OptedOutUnlessKnownPolicy(e: WatchEvent)
    requires EmailsOf(e) !in ["all", "onfinish", "onfailure"]
    ensures !IsRelevant(e)
  {
    assert !Passes(e, OptedOut);
  }

  /** What each policy accepts is contained in what the next more permissive one accepts. */
  lemma PolicyNesting(phase: string)
    ensures UserRequestedNotifications(phase, "onfailure") ==> UserRequestedNotifications(phase, "onfinish")
    ensures UserRequestedNotifications(phase, "onfinish") ==> UserRequestedNotifications(phase, "all")
    ensures UserRequestedNotifications(phase, "all")
    ensures !UserRequestedNotifications(phase, "none")
    ensures UserRequestedNotifications(phase, "onfinish") <==> phase == "Succeeded" || phase == "Failed"
    ensures UserRequestedNotifications(phase, "onfailure") <==> phase == "Failed"
  {
  }
}

=== FILE: batches.dfy ===
/**
 * The aggregation dictionary `emailevents`: user -> job -> messages, in the
 * order users, jobs and messages first arrived.
 */
module Batches {
  import opened Options
  import opened Dicts

  type Jobs = Dict<string, seq<string>>
  type EmailEvents = Dict<string, Jobs>

  /** A cache in which neither the users nor any user's jobs repeat. */
  predicate WellFormed(c: EmailEvents) {
    Valid(c) && forall u :: u in Keys(c) ==> Valid(Get(c, u).value)
  }

  /** The jobs recorded for `user`, none if the user is unknown. */
  function JobsOf(c: EmailEvents, user: string): Jobs {
    Get(c, user).GetOr([])
  }

  /** The messages recorded for `job` of `user`, none if either is unknown. */
  function MessagesOf(c: EmailEvents, user: string, job: string): seq<string> {
    Get(JobsOf(c, user), job).GetOr([])
  }

  /** Whether `user` has an entry for `job`, even an empty one. */
  predicate HasEntry(c: EmailEvents, user: string, job: string) {
    user in Keys(c) && job in Keys(Get(c, user).value)
  }

  function MessageCount(msgs: seq<string>): nat {
    |msgs|
  }

  function JobsTotal(jobs: Jobs): nat {
    SumBy(jobs, MessageCount)
  }

  /** How many messages wait in the whole cache. */
  function Total(c: EmailEvents): nat {
    SumBy(c, JobsTotal)
  }

  /**
   * `r` is `c` with `job` filed under `user`: every other user's entry is
   * untouched, and a user or job key that was missing goes after the ones
   * already there, which keep their order.
   */
  ghost predicate Files(c: EmailEvents, r: EmailEvents, user: string, job: string) {
    && (forall u :: u != user ==> Get(r, u) == Get(c, u))
    && (user in Keys(c) ==> Keys(r) == Keys(c))
    && (user !in Keys(c) ==> Keys(r) == Keys(c) + [user])
    && (job in Keys(JobsOf(c, user)) ==> Keys(JobsOf(r, user)) == Keys(JobsOf(c, user)))
    && (job !in Keys(JobsOf(c, user)) ==> Keys(JobsOf(r, user)) == Keys(JobsOf(c, user)) + [job])
  }

  /** Storing a job table under `user` replaces that user's jobs and keeps the cache well formed. */
  lemma PutJobs(c: EmailEvents, user: string, jobs': Jobs)
    ensures JobsOf(Put(c, user, jobs'), user) == jobs'
    ensures forall u :: u != user ==> JobsOf(Put(c, user, jobs'), u) == JobsOf(c, u)
    ensures forall u, j :: HasEntry(c, u, j) && u != user ==> HasEntry(Put(c, user, jobs'), u, j)
    ensures user in Keys(Put(c, user, jobs'))
    ensures WellFormed(c) && Valid(jobs') ==> WellFormed(Put(c, user, jobs'))
  {
    var r := Put(c, user, jobs');
    if WellFormed(c) && Valid(jobs') {
      forall u | u in Keys(r)
        ensures Valid(Get(r, u).value)
      {
        if u != user {
          assert Get(r, u) == Get(c, u);
        }
      }
    }
  }

  /**
   * The get-or-create half of `process_event`: gives `user` a job table and
   * `job` a message list if they have none, and changes nothing else.
   */
  function Touch(c: EmailEvents, user: string, job: string): (r: EmailEvents)
    ensures HasEntry(r, user, job)
    ensures forall u, j :: MessagesOf(r, u, j) == MessagesOf(c, u, j)
    ensures forall u, j :: HasEntry(c, u, j) ==> HasEntry(r, u, j)
    ensures Files(c, r, user, job)
    ensures Total(r) == Total(c)
    ensures WellFormed(c) ==> WellFormed(r)
  {
    var jobs := JobsOf(c, user);
    var jobs' := Put(jobs, job, MessagesOf(c, user, job));
    SumByPut(jobs, job, MessagesOf(c, user, job), MessageCount);
    SumByPut(c, user, jobs', JobsTotal);
    PutJobs(c, user, jobs');
    assert WellFormed(c) ==> Valid(jobs);
    Put(c, user, jobs')
  }

  /**
   * The append half of `process_event`: `emailevents[user][job]` becomes its
   * old list (or the empty one) followed by `msg`, and every other entry is
   * left alone. Nothing is de-duplicated.
   */
  function Append(c: EmailEvents, user: string, job: string, msg: string): (r: EmailEvents)
    ensures MessagesOf(r, user, job) == MessagesOf(c, user, job) + [msg]
    ensures forall u, j :: (u, j) != (user, job) ==> MessagesOf(r, u, j) == MessagesOf(c, u, j)
    ensures forall u, j :: HasEntry(c, u, j) ==> HasEntry(r, u, j)
    ensures HasEntry(r, user, job)
    ensures Files(c, r, user, job)
    ensures Total(r) == Total(c) + 1
    ensures WellFormed(c) ==> WellFormed(r)
  {
    var jobs := JobsOf(c, user);
    var msgs' := MessagesOf(c, user, job) + [msg];
    var jobs' := Put(jobs, job, msgs');
    SumByPut(jobs, job, msgs', MessageCount);
    SumByPut(c, user, jobs', JobsTotal);
    PutJobs(c, user, jobs');
    assert WellFormed(c) ==> Valid(jobs);
    Put(c, user, jobs')
  }

  /** Processing the same message twice leaves it in the list twice. */
  lemma NoDeduplication(c: EmailEvents, user: string, job: string, msg: string)
    ensures MessagesOf(Append(Append(c, user, job, msg), user, job, msg), user, job)
         == MessagesOf(c, user, job) + [msg, msg]
    ensures Total(Append(Append(c, user, job, msg), user, job, msg)) == Total(c) + 2
  {
  }
}

=== FILE: compose.dfy ===
/**
 * Turning cached batches into outgoing notifications (emailer/compose.py).
 *
 * A user's batch and its jobs are records whose definitions are not part of
 * this model. They appear here with just the fields the composer reads. A
 * job's type and emails setting, and each event, are kept as the text they
 * print as.
 */
module Compose {
  import opened Options
  import opened Text

  /** An outgoing notification: recipient, subject and body, in that order. */
  datatype Email = Email(address: string, subject: string, body: string)

  /** One job of a user's batch with its events, oldest first. */
  datatype Job = Job(name: string, kind: string, emailsConfig: string, events: seq<string>)

  /** A user's batch: the user and the jobs with something to report, in order. */
  datatype UserJobs = UserJobs(username: string, jobs: seq<Job>)

  /** The configuration entries the recipient address is built from. */
  predicate HasAddressKeys(cfg: map<string, string>) {
    "email_to_prefix" in cfg && "email_to_domain" in cfg
  }

  /** `f"{prefix}.{user}@{domain}"`, the recipient address of a user. */
  function Address(cfg: map<string, string>, user: string): string
    requires HasAddressKeys(cfg)
  {
    cfg["email_to_prefix"] + "." + user + "@" + cfg["email_to_domain"]
  }

  /** Recovers the user from an address built with the current prefix and domain. */
  function UserOfAddress(cfg: map<string, string>, address: string): Option<string>
    requires HasAddressKeys(cfg)
  {
    var head := cfg["email_to_prefix"] + ".";
    var tail := "@" + cfg["email_to_domain"];
    if |head| + |tail| <= |address| && StartsWith(address, head) && EndsWith(address, tail)
    then Some(address[|head|..|address| - |tail|])
    else None
  }

  /** The address names its user: reading it back with the same configuration gives the user again. */
  lemma AddressRoundTrip(cfg: map<string, string>, user: string)
    requires HasAddressKeys(cfg)
    ensures UserOfAddress(cfg, Address(cfg, user)) == Some(user)
  {
    var head := cfg["email_to_prefix"] + ".";
    var tail := "@" + cfg["email_to_domain"];
    var a := Address(cfg, user);
    assert a == head + user + tail;
    assert a[..|head|] == head;
    assert a[|a| - |tail|..] == tail;
    assert a[|head|..|a| - |tail|] == user;
  }

  /** Two users never share an address under one configuration. */
  lemma AddressInjective(cfg: map<string, string>, u1: string, u2: string)
    requires HasAddressKeys(cfg)
    requires Address(cfg, u1) == Address(cfg, u2)
    ensures u1 == u2
  {
    AddressRoundTrip(cfg, u1);
    AddressRoundTrip(cfg, u2);
  }

  const SubjectHead := "[Toolforge] notification about "

  /** The subject line reporting `n`, followed by a version-specific `tail`. */
  function Subject(n: nat, tail: string): string {
    SubjectHead + NatToString(n) + tail
  }

  /** The count a subject line reports, if it has the expected shape. */
  function CountInSubject(subject: string, tail: string): Option<nat> {
    if |SubjectHead| + |tail| <= |subject| && StartsWith(subject, SubjectHead) && EndsWith(subject, tail)
    then ParseNat(subject[|SubjectHead|..|subject| - |tail|])
    else None
  }

  /** The count can be read back off the subject line. */
  lemma SubjectRoundTrip(n: nat, tail: string)
    ensures CountInSubject(Subject(n, tail), tail) == Some(n)
  {
    var s := Subject(n, tail);
    var digits := NatToString(n);
    assert s[..|SubjectHead|] == SubjectHead;
    assert s[|s| - |tail|..] == tail;
    assert s[|SubjectHead|..|s| - |tail|] == digits;
    ParseNatToString(n);
  }

  /** A subject line that reads as `n` is exactly the one written for `n`. */
  lemma SubjectReadsOnlyItsOwn(subject: string, tail: string, n: nat)
    requires CountInSubject(subject, tail) == Some(n)
    ensures subject == Subject(n, tail)
  {
    var digits := subject[|SubjectHead|..|subject| - |tail|];
    ParseNatOnlyCanonical(digits, n);
    assert subject == subject[..|SubjectHead|] + digits + subject[|subject| - |tail|..];
  }

  const CurrentSubjectTail := " job events"

  const Intro := "We wanted to notify you about the activity of some jobs in Toolforge.\n"

  const Outro :=
    "\n\n"
    + "If you requested 'filelog' for any of the jobs mentioned above, you may find "
    + "additional information about what happened in the associated log files. "
    + "Check them from Toolforge bastions as usual.\n"
    + "\n"
    + "You are receiving this email because:\n"
    + " 1) when the job was created, it was requested to send email notfications\n"
    + " 2) you are listed as tool maintainer for this tool\n"
    + "\n"
    + "Find help and more information in wikitech: https://wikitech.wikimedia.org/\n"
    + "\n"
    + "Thanks for your contributions to the Wikimedia movement.\n"

  /** The line listing one event. */
  function EventLine(event: string): string {
    "  -- " + event + "\n"
  }

  /** One line per event, in the events' order. */
  function EventLines(events: seq<string>): string
    decreases |events|
  {
    if |events| == 0 then "" else EventLines(events[..|events| - 1]) + EventLine(events[|events| - 1])
  }

  /** Listing two runs of events one after the other lists them in that order. */
  lemma {:induction false} EventLinesAppend(a: seq<string>, b: seq<string>)
    ensures EventLines(a + b) == EventLines(a) + EventLines(b)
    decreases |b|
  {
    if |b| > 0 {
      var b' := b[..|b| - 1];
      assert (a + b)[..|a + b| - 1] == a + b';
      EventLinesAppend(a, b');
    } else {
      assert a + b == a;
    }
  }

  /** Event `k` has its own line, after the lines of all earlier events and before those of all later ones. */
  lemma {:induction false} EventLineAt(events: seq<string>, k: nat)
    requires k < |events|
    ensures EventLines(events) == EventLines(events[..k]) + EventLine(events[k]) + EventLines(events[k + 1..])
  {
    var before, x, after := events[..k], events[k], events[k + 1..];
    assert events == (before + [x]) + after;
    assert [x][..0] == [];
    calc {
      EventLines(events);
      { EventLinesAppend(before + [x], after); }
      EventLines(before + [x]) + EventLines(after);
      { EventLinesAppend(before, [x]); }
      EventLines(before) + EventLines([x]) + EventLines(after);
      EventLines(before) + EventLine(x) + EventLines(after);
    }
  }

  /** The heading of a job's section, stating how many events follow. */
  function Heading(job: Job): string {
    "\n* Job '" + job.name + "' (" + job.kind + ") (emails: " + job.emailsConfig + ") "
      + "had " + NatToString(|job.events|) + " events:\n"
  }

  function Section(job: Job): string {
    Heading(job) + EventLines(job.events)
  }

  /** The sections of all jobs, in job order. */
  function Sections(jobs: seq<Job>): string
    decreases |jobs|
  {
    if |jobs| == 0 then "" else Section(jobs[0]) + Sections(jobs[1..])
  }

  lemma {:induction false} SectionsAppend(a: seq<Job>, b: seq<Job>)
    ensures Sections(a + b) == Sections(a) + Sections(b)
    decreases |a|
  {
    if |a| == 0 {
      assert a + b == b;
    } else {
      assert (a + b)[1..] == a[1..] + b;
      SectionsAppend(a[1..], b);
    }
  }

  /**
   * `compose_email`: the notification for one user's batch. Its address
   * names the batch's user: reading it back with the same configuration gives
   * the user again.
   */
  function ComposeEmail(cfg: map<string, string>, batch: UserJobs): (email: Email)
    requires HasAddressKeys(cfg)
    ensures UserOfAddress(cfg, email.address) == Some(batch.username)
  {
    AddressRoundTrip(cfg, batch.username);
    var body := Intro + Sections(batch.jobs) + Outro;
    Email(Address(cfg, batch.username), Subject(|batch.jobs|, CurrentSubjectTail), body)
  }

  /**
   * The rest of the notification reads back too: the subject reports the
   * number of jobs, and the body opens with the greeting and closes with the
   * footer, word for word.
   */
  lemma ComposeEmailReadsBack(cfg: map<string, string>, batch: UserJobs)
    requires HasAddressKeys(cfg)
    ensures StartsWith(ComposeEmail(cfg, batch).body, Intro)
    ensures EndsWith(ComposeEmail(cfg, batch).body, Outro)
    ensures CountInSubject(ComposeEmail(cfg, batch).subject, CurrentSubjectTail) == Some(|batch.jobs|)
  {
    SubjectRoundTrip(|batch.jobs|, CurrentSubjectTail);
    var body := ComposeEmail(cfg, batch).body;
    assert body == Intro + Sections(batch.jobs) + Outro;
    assert body[..|Intro|] == Intro;
    assert body[|body| - |Outro|..] == Outro;
  }

  /**
   * The body reports job `i` in a section of its own, after the sections of
   * all earlier jobs and before those of all later ones.
   */
  lemma {:induction false} BodyReportsJob(cfg: map<string, string>, batch: UserJobs, i: nat)
    requires HasAddressKeys(cfg)
    requires i < |batch.jobs|
    ensures ComposeEmail(cfg, batch).body
         == Intro + (Sections(batch.jobs[..i]) + (Section(batch.jobs[i]) + Sections(batch.jobs[i + 1..]))) + Outro
  {
    var jobs := batch.jobs;
    var rest := [jobs[i]] + jobs[i + 1..];
    assert jobs == jobs[..i] + rest;
    assert rest[0] == jobs[i] && rest[1..] == jobs[i + 1..];
    SectionsAppend(jobs[..i], rest);
    assert Sections(jobs) == Sections(jobs[..i]) + (Section(jobs[i]) + Sections(jobs[i + 1..]));
  }

  /**
   * A job's section opens with its heading, which states the event count,
   * and then gives event `k` a line of its own, in event order.
   */
  lemma SectionLineAt(job: Job, k: nat)
    requires k < |job.events|
    ensures Section(job)
         == Heading(job) + (EventLines(job.events[..k]) + EventLine(job.events[k]) + EventLines(job.events[k + 1..]))
  {
    EventLineAt(job.events, k);
  }

  /** `compose_email` of each batch, in order. */
  function ComposeAll(cfg: map<string, string>, batches: seq<UserJobs>): (emails: seq<Email>)
    requires HasAddressKeys(cfg)
    ensures |emails| == |batches|
    decreases |batches|
  {
    if |batches| == 0 then []
    else ComposeAll(cfg, batches[..|batches| - 1]) + [ComposeEmail(cfg, batches[|batches| - 1])]
  }

  /** Entry `i` of the composed list is the notification for entry `i` of the input. */
  lemma {:induction false} ComposeAllAt(cfg: map<string, string>, batches: seq<UserJobs>, i: nat)
    requires HasAddressKeys(cfg) && i < |batches|
    ensures ComposeAll(cfg, batches)[i] == ComposeEmail(cfg, batches[i])
    decreases |batches|
  {
    var k := |batches| - 1;
    if i < k {
      ComposeAllAt(cfg, batches[..k], i);
    }
  }

  /** Removes the visited batches from an abstract cache, one after another. */
  function DeleteAll<C>(cache: C, visited: seq<UserJobs>, delete: (C, UserJobs) -> C): C
    decreases |visited|
  {
    if |visited| == 0 then cache
    else delete(DeleteAll(cache, visited[..|visited| - 1], delete), visited[|visited| - 1])
  }

  /**
   * One cycle of `task_compose_emails`. The cache class is not part of this
   * model, so its state is abstract: `visited` is what the iteration over it
   * yielded, and `delete` is its removal operation. Each visited batch is
   * composed onto the back of the queue and then deleted. Entries already
   * queued keep their places. The cycle reports how many notifications it
   * queued, and announces them only when there are some.
   */
  method ComposeCycle<C>(
    cfg: map<string, string>,
    queue: seq<Email>,
    cache: C,
    visited: seq<UserJobs>,
    delete: (C, UserJobs) -> C)
    returns (queue': seq<Email>, cache': C, added: nat, announced: bool)
    requires HasAddressKeys(cfg)
    ensures queue' == queue + ComposeAll(cfg, visited)
    ensures cache' == DeleteAll(cache, visited, delete)
    ensures added == |visited|
    ensures announced <==> |visited| > 0
  {
    var before := |queue|;
    queue' := queue;
    cache' := cache;
    var n := 0;
    while n < |visited|
      invariant n <= |visited|
      invariant queue' == queue + ComposeAll(cfg, visited[..n])
      invariant cache' == DeleteAll(cache, visited[..n], delete)
    {
      assert visited[..n + 1][..n] == visited[..n];
      queue' := queue' + [ComposeEmail(cfg, visited[n])];
      cache' := delete(cache', visited[n]);
      n := n + 1;
    }
    assert visited[..n] == visited;
    added := |queue'| - before;
    announced := added > 0;
  }
}

=== FILE: config.dfy ===
/**
 * Runtime configuration (emailer/cfg.py): the tunables dictionary, merging a
 * configmap into it, the version gate of the configmap poller, and the log
 * level chosen from it.
 *
 * Values stay strings, as in the source; reading a number out of one is the
 * caller's business. The configmap's `data` is an ordered dict, iterated in
 * order by the merge.
 */
module Config {
  import opened Options
  import opened Dicts

  type Tunables = map<string, string>

  /** The built-in defaults, `CFG_DICT` at start-up. */
  const Defaults: Tunables := map[
    "task_compose_emails_loop_sleep" := "300",
    "task_send_emails_loop_sleep" := "30",
    "task_send_emails_max" := "10",
    "task_watch_pods_timeout" := "60",
    "task_read_configmap_sleep" := "10",
    "email_to_domain" := "toolsbeta.wmflabs.org",
    "email_to_prefix" := "toolsbeta",
    "email_from_addr" := "root@toolforge.org",
    "smtp_server_fqdn" := "mail.toolforge.org",
    "smtp_server_port" := "465",
    "send_emails_for_real" := "no",
    "debug" := "yes"
  ]

  /** A configuration that still has every built-in key, so every lookup of one succeeds. */
  predicate Complete(cfg: Tunables) {
    Defaults.Keys <= cfg.Keys
  }

  /**
   * `reconfigure`: walks the configmap data in order, overwriting each key the
   * configuration already knows and skipping (with a warning) every other.
   */
  function Reconfigure(cfg: Tunables, data: Dict<string, string>): (r: Tunables)
    requires Valid(data)
    ensures r.Keys == cfg.Keys
    ensures forall k :: k in cfg ==> r[k] == Get(data, k).GetOr(cfg[k])
    decreases |data|
  {
    if |data| == 0 then cfg
    else
      var (k, v) := data[0];
      var cfg' := if k in cfg then cfg[k := v] else cfg;
      var r := Reconfigure(cfg', data[1..]);
      assert forall k' :: k' in cfg && k' != k ==> Get(data, k') == Get(data[1..], k');
      assert k in cfg ==> Get(data[1..], k) == None;
      r
  }

  /** Merging the same configmap a second time changes nothing. */
  lemma ReconfigureIdempotent(cfg: Tunables, data: Dict<string, string>)
    requires Valid(data)
    ensures Reconfigure(Reconfigure(cfg, data), data) == Reconfigure(cfg, data)
  {
  }

  /** The merge keeps every built-in key, so later lookups keep succeeding. */
  lemma ReconfigureKeepsComplete(cfg: Tunables, data: Dict<string, string>)
    requires Valid(data) && Complete(cfg)
    ensures Complete(Reconfigure(cfg, data))
  {
  }

  datatype LogLevel = Debug | Info

  /** `reconfigure_logging`: debug output only when `debug` is exactly "yes". */
  function LogLevelOf(cfg: Tunables): (level: LogLevel)
    requires "debug" in cfg
    ensures level == Debug <==> cfg["debug"] == "yes"
    ensures level == Info <==> cfg["debug"] != "yes"
  {
    if cfg["debug"] != "yes" then Info else Debug
  }

  /**
   * The level after a merge: taken from the configmap's `debug` entry when it
   * has one, otherwise unchanged.
   */
  lemma LogLevelAfterReconfigure(cfg: Tunables, data: Dict<string, string>)
    requires Valid(data) && "debug" in cfg
    ensures "debug" in Reconfigure(cfg, data)
    ensures Get(data, "debug").Some? ==>
      (LogLevelOf(Reconfigure(cfg, data)) == Debug <==> Get(data, "debug").value == "yes")
    ensures Get(data, "debug").None? ==> LogLevelOf(Reconfigure(cfg, data)) == LogLevelOf(cfg)
  {
  }

  /** The result of one read of the configmap. */
  datatype Fetch =
    | FetchFailed
    | Fetched(version: int, data: Dict<string, string>)

  /** The poller's state: the live configuration and the last version applied. */
  datatype Poller = Poller(cfg: Tunables, lastSeen: int)

  /** The poller as `task_read_configmap` starts it. */
  const InitialPoller := Poller(Defaults, 0)

  predicate WellFormedFetch(f: Fetch) {
    f.Fetched? ==> Valid(f.data)
  }

  /**
   * One iteration of `task_read_configmap`. A failed read keeps everything;
   * a read is applied only when its version is strictly newer than the last
   * applied one.
   */
  function PollStep(p: Poller, f: Fetch): (r: Poller)
    requires WellFormedFetch(f)
    ensures r.lastSeen >= p.lastSeen
    ensures r.cfg.Keys == p.cfg.Keys
    ensures f.FetchFailed? ==> r == p
    ensures f.Fetched? && f.version <= p.lastSeen ==> r == p
    ensures f.Fetched? && f.version > p.lastSeen ==>
      r.lastSeen == f.version && r.cfg == Reconfigure(p.cfg, f.data)
  {
    match f
    case FetchFailed => p
    case Fetched(version, data) =>
      if version > p.lastSeen then Poller(Reconfigure(p.cfg, data), version) else p
  }

  /** The largest of `start` and every version successfully read in `fs`. */
  function MaxVersion(start: int, fs: seq<Fetch>): (m: int)
    ensures m >= start
    ensures forall i :: 0 <= i < |fs| && fs[i].Fetched? ==> m >= fs[i].version
    ensures m == start || exists i :: 0 <= i < |fs| && fs[i].Fetched? && m == fs[i].version
    decreases |fs|
  {
    if |fs| == 0 then start
    else
      var next := if fs[0].Fetched? && fs[0].version > start then fs[0].version else start;
      var m := MaxVersion(next, fs[1..]);
      assert m != next ==> exists i :: 1 <= i < |fs| && fs[i].Fetched? && m == fs[i].version by {
        if m != next {
          var j :| 0 <= j < |fs[1..]| && fs[1..][j].Fetched? && m == fs[1..][j].version;
          assert fs[j + 1] == fs[1..][j];
        }
      }
      m
  }

  /** The poller after a run of reads. */
  function PollRun(p: Poller, fs: seq<Fetch>): Poller
    requires forall i :: 0 <= i < |fs| ==> WellFormedFetch(fs[i])
    decreases |fs|
  {
    if |fs| == 0 then p else PollRun(PollStep(p, fs[0]), fs[1..])
  }

  /**
   * Over any run of reads the configuration keeps exactly its keys, and the
   * last applied version is the largest one seen, never less than where it
   * started. A run in which nothing is newer leaves the configuration as it
   * was.
   */
  lemma {:induction false} PollRunMonotone(p: Poller, fs: seq<Fetch>)
    requires forall i :: 0 <= i < |fs| ==> WellFormedFetch(fs[i])
    ensures PollRun(p, fs).cfg.Keys == p.cfg.Keys
    ensures PollRun(p, fs).lastSeen == MaxVersion(p.lastSeen, fs)
    ensures PollRun(p, fs).lastSeen >= p.lastSeen
    ensures MaxVersion(p.lastSeen, fs) == p.lastSeen ==> PollRun(p, fs) == p
    decreases |fs|
  {
    if |fs| > 0 {
      PollRunMonotone(PollStep(p, fs[0]), fs[1..]);
    }
  }

  /**
   * The poller as `task_read_configmap` starts it holds every tunable, and
   * whatever reads follow, it still does: each lookup of a tunable by the
   * tasks finds its key. Its last applied version is the largest one read,
   * or 0.
   */
  lemma PollFromStart(fs: seq<Fetch>)
    requires forall i :: 0 <= i < |fs| ==> WellFormedFetch(fs[i])
    ensures Complete(InitialPoller.cfg) && InitialPoller.lastSeen == 0
    ensures Complete(PollRun(InitialPoller, fs).cfg)
    ensures PollRun(InitialPoller, fs).lastSeen == MaxVersion(0, fs)
  {
    PollRunMonotone(InitialPoller, fs);
  }
}

=== FILE: dicts.dfy ===
/**
 * Python's insertion-ordered `dict`, as a list of key/value entries.
 *
 * Iteration order is observable in this system (the order of jobs in a
 * notification body, the order users are drained in), so a plain Dafny `map`
 * is not enough. `Put` is item assignment: an existing key keeps its place and
 * takes the new value, a new key goes to the end. `Remove` is `del d[k]`.
 */
module Dicts {
  import opened Options

  type Dict<K, V> = seq<(K, V)>

  /** The keys in iteration order, i.e. `list(d)`. */
  function Keys<K, V>(d: Dict<K, V>): (ks: seq<K>)
    ensures |ks| == |d|
  {
    if |d| == 0 then [] else [d[0].0] + Keys(d[1..])
  }

  /** No key occurs twice: the invariant every Python dict keeps. */
  predicate Valid<K(==), V>(d: Dict<K, V>) {
    |d| == 0 || (d[0].0 !in Keys(d[1..]) && Valid(d[1..]))
  }

  /** `d.get(k)`: the value stored under `k`, if any. */
  function Get<K(==), V>(d: Dict<K, V>, k: K): (r: Option<V>)
    ensures r.Some? <==> k in Keys(d)
  {
    if |d| == 0 then None
    else if d[0].0 == k then Some(d[0].1)
    else Get(d[1..], k)
  }

  /** How the three views above see an entry put in front of a dict. */
  lemma Cons<K(!new), V>(x: (K, V), d: Dict<K, V>)
    ensures ([x] + d)[1..] == d
    ensures Keys([x] + d) == [x.0] + Keys(d)
    ensures Valid([x] + d) <==> x.0 !in Keys(d) && Valid(d)
    ensures forall k :: Get([x] + d, k) == if x.0 == k then Some(x.1) else Get(d, k)
  {
    assert ([x] + d)[1..] == d;
  }

  /** `d[k] = v`. */
  function Put<K(==,!new), V>(d: Dict<K, V>, k: K, v: V): (r: Dict<K, V>)
    ensures Get(r, k) == Some(v)
    ensures forall k' :: k' != k ==> Get(r, k') == Get(d, k')
    ensures k in Keys(d) ==> Keys(r) == Keys(d)
    ensures k !in Keys(d) ==> Keys(r) == Keys(d) + [k]
    ensures Valid(d) ==> Valid(r)
  {
    if |d| == 0 then [(k, v)]
    else if d[0].0 == k then
      Cons((k, v), d[1..]);
      Cons(d[0], d[1..]);
      assert d == [d[0]] + d[1..];
      [(k, v)] + d[1..]
    else
      var tail := Put(d[1..], k, v);
      Cons(d[0], tail);
      Cons(d[0], d[1..]);
      assert d == [d[0]] + d[1..];
      [d[0]] + tail
  }

  /** The position of a stored key: `list(d).index(k)`. */
  function IndexOf<K(==), V>(d: Dict<K, V>, k: K): (i: nat)
    requires k in Keys(d)
    ensures i < |d| && d[i].0 == k
  {
    if d[0].0 == k then 0 else 1 + IndexOf(d[1..], k)
  }

  /**
   * `del d[k]`, which raises `KeyError` unless `k` is stored: the entry of
   * `k` is cut out and every other entry keeps its place in the order.
   */
  function Remove<K(==,!new), V>(d: Dict<K, V>, k: K): (r: Dict<K, V>)
    requires Valid(d) && k in Keys(d)
    ensures Valid(r)
    ensures Get(r, k) == None
    ensures forall k' :: k' != k ==> Get(r, k') == Get(d, k')
    ensures forall k' :: k' in Keys(r) ==> k' in Keys(d)
    ensures |d| > 0 && d[0].0 == k ==> r == d[1..]
    ensures r == d[..IndexOf(d, k)] + d[IndexOf(d, k) + 1..]
  {
    if d[0].0 == k then d[1..]
    else
      var tail := Remove(d[1..], k);
      Cons(d[0], tail);
      assert [d[0]] + tail == d[..IndexOf(d, k)] + d[IndexOf(d, k) + 1..];
      [d[0]] + tail
  }

  /** Entry `i` of the dict holds the `i`-th key. */
  lemma KeysAt<K, V>(d: Dict<K, V>, i: nat)
    requires i < |d|
    ensures Keys(d)[i] == d[i].0
  {
    if i > 0 {
      KeysAt(d[1..], i - 1);
    }
  }

  /** Adds `f` over every stored value. */
  function SumBy<K, V>(d: Dict<K, V>, f: V -> nat): nat {
    if |d| == 0 then 0 else f(d[0].1) + SumBy(d[1..], f)
  }

  /** The measure of the value `f` assigns to `Get(d, k)`, zero when `k` is absent. */
  function MeasureAt<K(==,!new), V>(d: Dict<K, V>, k: K, f: V -> nat): nat {
    match Get(d, k)
    case Some(v) => f(v)
    case None => 0
  }

  /** Assigning `d[k] = v` trades the old value's share of the total for the new one's. */
  lemma {:induction false} SumByPut<K(!new), V>(d: Dict<K, V>, k: K, v: V, f: V -> nat)
    ensures SumBy(Put(d, k, v), f) + MeasureAt(d, k, f) == SumBy(d, f) + f(v)
  {
    if |d| > 0 && d[0].0 != k {
      SumByPut(d[1..], k, v, f);
      assert Put(d, k, v)[1..] == Put(d[1..], k, v);
    }
  }
}

=== FILE: events.dfy ===
/**
 * The watch side of the current emailer (emailer/events.py): caching a
 * relevant event, and the watch loop that feeds the cache.
 *
 * The text of a cached message comes from a renderer that is not part of this
 * model, so it is a parameter `render`. It is total and only ever called
 * once per cached event.
 */
module Events {
  import opened Options
  import opened Pods
  import opened Batches
  import opened Admission
  import Watching

  /** Reads `labels[key]`, which raises when the label is missing. */
  function RequiredLabel(e: WatchEvent, key: string): Option<string> {
    if key in e.pod.labels then Some(e.pod.labels[key]) else None
  }

  /**
   * `process_event`: caches `render(e)` under the user and job named by the
   * created-by and name labels. If either label is missing the lookup raises
   * before anything is touched.
   */
  function ProcessEvent(c: EmailEvents, e: WatchEvent, render: WatchEvent -> string): (r: Watching.Processed)
    ensures r.ok <==> CreatedByLabel in e.pod.labels && NameLabel in e.pod.labels
    ensures !r.ok ==> r.cache == c
    ensures r.ok ==>
      var user := e.pod.labels[CreatedByLabel];
      var job := e.pod.labels[NameLabel];
      && MessagesOf(r.cache, user, job) == MessagesOf(c, user, job) + [render(e)]
      && (forall u, j :: (u, j) != (user, job) ==> MessagesOf(r.cache, u, j) == MessagesOf(c, u, j))
      && Total(r.cache) == Total(c) + 1
      && Files(c, r.cache, user, job)
    ensures WellFormed(c) ==> WellFormed(r.cache)
  {
    match (RequiredLabel(e, CreatedByLabel), RequiredLabel(e, NameLabel))
    case (Some(user), Some(job)) => Watching.Processed(Append(c, user, job, render(e)), true)
    case _ => Watching.Processed(c, false)
  }

  /** `process_event` bound to a renderer, in the shape the watch loop expects. */
  function Processor(render: WatchEvent -> string): (EmailEvents, WatchEvent) -> Watching.Processed {
    (c: EmailEvents, e: WatchEvent) => ProcessEvent(c, e, render)
  }

  /** The event carries both labels `process_event` looks up. */
  predicate Named(e: WatchEvent) {
    CreatedByLabel in e.pod.labels && NameLabel in e.pod.labels
  }

  /** Every relevant event names its user and its job, so caching it cannot raise. */
  predicate Attributable(evs: seq<WatchEvent>) {
    forall i :: 0 <= i < |evs| && IsRelevant(evs[i]) ==> Named(evs[i])
  }

  /**
   * The inner loop of `task_watch_pods` over the events the stream delivered.
   * It dies at the first relevant event that lacks the created-by or the name
   * label, and only there.
   */
  function Watch(st: Watching.WatchState, evs: seq<WatchEvent>, render: WatchEvent -> string): (r: Watching.Run)
    ensures r.stoppedAt.None? <==> Attributable(evs)
    ensures r.stoppedAt.Some? ==>
      var i := r.stoppedAt.value;
      && i < |evs|
      && IsRelevant(evs[i])
      && !Named(evs[i])
      && forall k :: 0 <= k < i && IsRelevant(evs[k]) ==> Named(evs[k])
  {
    assert forall c: EmailEvents, e: WatchEvent :: Processor(render)(c, e).ok == Named(e);
    Watching.ConsumeStopsAtFirstFailure(st, evs, IsRelevant, Processor(render), Named);
    Watching.Consume(st, evs, IsRelevant, Processor(render))
  }

  /**
   * Over a stream whose relevant events all name their user and job, the loop
   * never dies. The cursor ends on the last event's resource version, and the
   * cache gains exactly one message per relevant event.
   */
  lemma {:induction false} WatchCountsRelevant(st: Watching.WatchState, evs: seq<WatchEvent>, render: WatchEvent -> string)
    requires Attributable(evs)
    ensures Watch(st, evs, render).stoppedAt.None?
    ensures |evs| > 0 ==> Watch(st, evs, render).state.cursor == evs[|evs| - 1].pod.resourceVersion
    ensures Total(Watch(st, evs, render).state.cache) == Total(st.cache) + |Watching.Admitted(evs, IsRelevant)|
    ensures WellFormed(st.cache) ==> WellFormed(Watch(st, evs, render).state.cache)
    decreases |evs|
  {
    if |evs| > 0 {
      var e := evs[0];
      assert Attributable(evs[1..]) by {
        forall i | 0 <= i < |evs[1..]| && IsRelevant(evs[1..][i])
          ensures CreatedByLabel in evs[1..][i].pod.labels && NameLabel in evs[1..][i].pod.labels
        {
          assert evs[1..][i] == evs[i + 1];
        }
      }
      var c' := if IsRelevant(e) then ProcessEvent(st.cache, e, render).cache else st.cache;
      WatchCountsRelevant(Watching.WatchState(c', e.pod.resourceVersion), evs[1..], render);
    }
  }

  /** A stream with nothing relevant in it leaves the cache exactly as it was. */
  lemma IrrelevantEventsLeaveCache(st: Watching.WatchState, evs: seq<WatchEvent>, render: WatchEvent -> string)
    requires forall i :: 0 <= i < |evs| ==> !IsRelevant(evs[i])
    ensures Watch(st, evs, render).stoppedAt.None?
    ensures Watch(st, evs, render).state.cache == st.cache
  {
    Watching.ConsumeCachesAdmitted(st, evs, IsRelevant, Processor(render));
    Watching.NoneAdmitted(evs, IsRelevant);
  }

  /** Caching the same event twice keeps both copies. */
  lemma ProcessTwiceKeepsBoth(c: EmailEvents, e: WatchEvent, render: WatchEvent -> string)
    requires CreatedByLabel in e.pod.labels && NameLabel in e.pod.labels
    ensures
      var user := e.pod.labels[CreatedByLabel];
      var job := e.pod.labels[NameLabel];
      var twice := ProcessEvent(ProcessEvent(c, e, render).cache, e, render).cache;
      MessagesOf(twice, user, job) == MessagesOf(c, user, job) + [render(e), render(e)]
  {
  }
}

/**
 * The pod sequences of the test fixture (tests/fake_k8s.py), replayed through
 * the current watch loop. The emails label carries the plain policy string.
 */
module FixtureScenarios {
  import opened Options
  import opened Pods
  import opened Batches
  import opened Admission
  import Watching
  import Events
  import Text

  /** A "MODIFIED" event for a fixture pod of a normal job in phase `phase`. */
  function FakeEvent(emails: string, phase: string): WatchEvent {
    WatchEvent("MODIFIED", Pod(
      "tool-test-account",
      "fake-pod-name",
      map[
        ManagedByLabel := "toolforge-jobs-framework",
        CreatedByLabel := "mytool",
        ComponentLabel := "jobs",
        NameLabel := "myjob",
        EmailsLabel := emails,
        ToolforgeLabel := "tool"],
      None,
      phase,
      phase,
      []))
  }

  /** pending, running, then finished in `last` ("Succeeded" or "Failed"). */
  function Sequence(emails: string, last: string): seq<WatchEvent> {
    [FakeEvent(emails, "Pending"), FakeEvent(emails, "Running"), FakeEvent(emails, last)]
  }

  function Start(): Watching.WatchState {
    Watching.WatchState([], "")
  }

  /** How many messages the watch loop caches for a fixture sequence. */
  function Cached(emails: string, last: string, render: WatchEvent -> string): nat {
    Total(Events.Watch(Start(), Sequence(emails, last), render).state.cache)
  }

  /** A fixture event in an active phase is relevant exactly when its policy asks for that phase. */
  lemma FakeEventRelevance(emails: string, phase: string)
    requires ActivePhase(phase)
    ensures IsRelevant(FakeEvent(emails, phase)) <==> UserRequestedNotifications(phase, emails)
  {
    var e := FakeEvent(emails, phase);
    assert Text.StartsWith(e.pod.namespace, "tool-");
    assert EmailsOf(e) == emails;
    RelevantIff(e);
  }

  /** The pending event is always dropped; each later one counts when its policy asks for it. */
  lemma {:induction false} SequenceCount(emails: string, last: string, render: WatchEvent -> string)
    requires last == "Succeeded" || last == "Failed"
    ensures Cached(emails, last, render)
         == (if UserRequestedNotifications("Running", emails) then 1 else 0)
          + (if UserRequestedNotifications(last, emails) then 1 else 0)
  {
    var evs := Sequence(emails, last);
    assert Events.Attributable(evs);
    Events.WatchCountsRelevant(Start(), evs, render);
    PendingNeverRelevant(evs[0]);
    FakeEventRelevance(emails, "Running");
    FakeEventRelevance(emails, last);
    var tail1, tail2 := evs[1..], evs[1..][1..];
    assert tail2[1..] == [];
    assert |Watching.Admitted(tail2, IsRelevant)| == (if IsRelevant(tail2[0]) then 1 else 0);
    assert |Watching.Admitted(tail1, IsRelevant)|
        == (if IsRelevant(tail1[0]) then 1 else 0) + |Watching.Admitted(tail2, IsRelevant)|;
    assert |Watching.Admitted(evs, IsRelevant)| == |Watching.Admitted(tail1, IsRelevant)|;
  }

  /**
   * Under "all" both events after Pending are cached, under "onfinish" only
   * the finishing one, under "onfailure" only a failure, and under "none"
   * nothing.
   */
  lemma FixtureCounts(render: WatchEvent -> string)
    ensures Cached("all", "Succeeded", render) == 2
    ensures Cached("onfinish", "Succeeded", render) == 1
    ensures Cached("onfailure", "Succeeded", render) == 0
    ensures Cached("all", "Failed", render) == 2
    ensures Cached("onfinish", "Failed", render) == 1
    ensures Cached("onfailure", "Failed", render) == 1
    ensures Cached("none", "Failed", render) == 0
  {
    SequenceCount("all", "Succeeded", render);
    SequenceCount("onfinish", "Succeeded", render);
    SequenceCount("onfailure", "Succeeded", render);
    SequenceCount("all", "Failed", render);
    SequenceCount("onfinish", "Failed", render);
    SequenceCount("onfailure", "Failed", render);
    SequenceCount("none", "Failed", render);
  }
}

=== FILE: legacy.dfy ===
/**
 * The single-file predecessor (emailer/emailer.py). It runs the same stages
 * as the split modules, with these differences:
 *
 * - the filter wants a finished phase and ignores the emails label;
 * - the message is built from the first container's terminated state, after
 *   the user and job entries have already been created;
 * - the composer works on the plain user -> job -> messages dictionary, and
 *   its cycle drains a snapshot of the users, deleting each one.
 *
 * Its dispatch loop runs the same counter logic as the split modules' loop,
 * and its configuration merge and configmap poller follow the same steps as
 * theirs, so they share their model (modules Send and Config).
 */
module Legacy {
  import opened Options
  import opened Text
  import opened Dicts
  import opened Pods
  import opened Batches
  import opened Compose
  import Admission
  import Watching

  /** The legacy phase check: only finished pods. */
  predicate FinishedPhase(phase: string) {
    phase == "Succeeded" || phase == "Failed"
  }

  /** The legacy checks: the shared ones, a finished phase, and no opt-out check at all. */
  predicate Passes(e: WatchEvent, x: Admission.Reason) {
    match x
    case PhaseNotRelevant => FinishedPhase(e.pod.phase)
    case OptedOut => true
    case _ => Admission.Passes(e, x)
  }

  /** `pod_event_is_relevant` of the legacy emailer, reporting the first check that failed. */
  function Relevance(e: WatchEvent): (r: Admission.Verdict)
    ensures r.Relevant? <==> forall x :: Passes(e, x)
    ensures r.Ignored? ==> r.reason != Admission.OptedOut && !Passes(e, r.reason)
    ensures r.Ignored? ==> forall y :: Admission.Rank(y) < Admission.Rank(r.reason) ==> Passes(e, y)
  {
    match Admission.Screen(e)
    case Some(x) =>
      assert !Passes(e, x);
      Admission.Ignored(x)
    case None =>
      if !FinishedPhase(e.pod.phase) then
        assert !Passes(e, Admission.PhaseNotRelevant);
        Admission.Ignored(Admission.PhaseNotRelevant)
      else Admission.Relevant
  }

  predicate IsRelevant(e: WatchEvent) {
    Relevance(e).Relevant?
  }

  /**
   * The legacy filter accepts exactly what the current one accepts from a job
   * labelled "onfinish": same shared checks, and only finished phases.
   */
  lemma SameAsOnFinish(e: WatchEvent)
    ensures IsRelevant(e) <==> Admission.IsRelevant(WithLabel(e, EmailsLabel, "onfinish"))
  {
    var e' := WithLabel(e, EmailsLabel, "onfinish");
    assert Admission.EmailsOf(e') == "onfinish";
    assert forall x :: x != Admission.PhaseNotRelevant && x != Admission.OptedOut ==>
      (Admission.Passes(e, x) <==> Admission.Passes(e', x));
    if IsRelevant(e) {
      assert forall x :: Admission.Passes(e', x) by {
        forall x ensures Admission.Passes(e', x) {
          assert Passes(e, x);
        }
      }
    }
    if Admission.IsRelevant(e') {
      assert forall x :: Passes(e, x) by {
        forall x ensures Passes(e, x) {
          assert Admission.Passes(e', x);
        }
      }
    }
  }

  /**
   * The text cached for a finished container. It opens by naming the pod and
   * when it started, and closes with the termination reason and message.
   */
  function EventMessage(pod: Pod, status: ContainerStatus, t: Terminated): (msg: string)
    ensures StartsWith(msg, "A pod named '" + pod.name + "' was created at " + t.startedAt + ". ")
    ensures EndsWith(msg, "The reason was '" + t.reason + "' with message '" + t.message + "'.")
  {
    "A pod named '" + pod.name + "' was created at " + t.startedAt + ". "
      + "It was restarted " + NatToString(status.restartCount) + " times. "
      + "It finished at " + t.finishedAt + " with exit code " + IntToString(t.exitCode) + ". "
      + "The reason was '" + t.reason + "' with message '" + t.message + "'."
  }

  /** The first container's terminated state, if it has one. */
  function FinishedContainer(p: Pod): Option<(ContainerStatus, Terminated)> {
    if |p.containerStatuses| == 0 then None
    else
      match p.containerStatuses[0].terminated
      case Some(t) => Some((p.containerStatuses[0], t))
      case None => None
  }

  /**
   * Legacy `process_event`. The user and job labels are read first, and a
   * missing one raises before anything changes. Then the user and job entries
   * are created if missing. Then the first container's terminated state is
   * read: when the pod has no container status, or the container has not
   * terminated, the call raises here and leaves the freshly created entries
   * behind.
   */
  function ProcessEvent(c: EmailEvents, e: WatchEvent): (r: Watching.Processed)
    ensures r.ok <==>
      CreatedByLabel in e.pod.labels && NameLabel in e.pod.labels && FinishedContainer(e.pod).Some?
    ensures !(CreatedByLabel in e.pod.labels && NameLabel in e.pod.labels) ==> r.cache == c
    ensures CreatedByLabel in e.pod.labels && NameLabel in e.pod.labels ==>
      var user := e.pod.labels[CreatedByLabel];
      var job := e.pod.labels[NameLabel];
      && HasEntry(r.cache, user, job)
      && (forall u, j :: (u, j) != (user, job) ==> MessagesOf(r.cache, u, j) == MessagesOf(c, u, j))
      && (forall u, j :: HasEntry(c, u, j) ==> HasEntry(r.cache, u, j))
      && Files(c, r.cache, user, job)
      && (r.ok ==>
            && MessagesOf(r.cache, user, job) == MessagesOf(c, user, job) + [EventMessage(e.pod, FinishedContainer(e.pod).value.0, FinishedContainer(e.pod).value.1)]
            && Total(r.cache) == Total(c) + 1)
      && (!r.ok ==> MessagesOf(r.cache, user, job) == MessagesOf(c, user, job) && Total(r.cache) == Total(c))
    ensures WellFormed(c) ==> WellFormed(r.cache)
  {
    if CreatedByLabel !in e.pod.labels || NameLabel !in e.pod.labels then Watching.Processed(c, false)
    else
      var user := e.pod.labels[CreatedByLabel];
      var job := e.pod.labels[NameLabel];
      var touched := Touch(c, user, job);
      match FinishedContainer(e.pod)
      case None => Watching.Processed(touched, false)
      case Some((status, t)) =>
        Watching.Processed(Append(touched, user, job, EventMessage(e.pod, status, t)), true)
  }

  /** The raising call leaves an empty message list for a job the cache did not know. */
  lemma FailedProcessLeavesEmptyEntry(c: EmailEvents, e: WatchEvent)
    requires CreatedByLabel in e.pod.labels && NameLabel in e.pod.labels
    requires FinishedContainer(e.pod).None?
    requires !HasEntry(c, e.pod.labels[CreatedByLabel], e.pod.labels[NameLabel])
    ensures !ProcessEvent(c, e).ok
    ensures HasEntry(ProcessEvent(c, e).cache, e.pod.labels[CreatedByLabel], e.pod.labels[NameLabel])
    ensures MessagesOf(ProcessEvent(c, e).cache, e.pod.labels[CreatedByLabel], e.pod.labels[NameLabel]) == []
  {
  }

  function Processor(): (EmailEvents, WatchEvent) -> Watching.Processed {
    (c: EmailEvents, e: WatchEvent) => ProcessEvent(c, e)
  }

  /** Caching the event cannot raise: both labels are there and the first container has terminated. */
  predicate Cacheable(e: WatchEvent) {
    CreatedByLabel in e.pod.labels && NameLabel in e.pod.labels && FinishedContainer(e.pod).Some?
  }

  /**
   * The inner loop of the legacy `task_watch_pods`. It dies at the first
   * relevant event that lacks a label or whose first container has not
   * terminated, and only there.
   */
  function Watch(st: Watching.WatchState, evs: seq<WatchEvent>): (r: Watching.Run)
    ensures r.stoppedAt.None? <==> forall i :: 0 <= i < |evs| && IsRelevant(evs[i]) ==> Cacheable(evs[i])
    ensures r.stoppedAt.Some? ==>
      var i := r.stoppedAt.value;
      && i < |evs|
      && IsRelevant(evs[i])
      && !Cacheable(evs[i])
      && forall k :: 0 <= k < i && IsRelevant(evs[k]) ==> Cacheable(evs[k])
  {
    assert forall c: EmailEvents, e: WatchEvent :: Processor()(c, e).ok == Cacheable(e);
    Watching.ConsumeStopsAtFirstFailure(st, evs, IsRelevant, Processor(), Cacheable);
    Watching.Consume(st, evs, IsRelevant, Processor())
  }

  /**
   * A relevant event for a pod whose container has not terminated kills the
   * legacy watch loop. The cursor stays put, and the job's new, empty entry
   * stays in the cache for the composer to find.
   */
  lemma UnfinishedContainerStopsWatch(st: Watching.WatchState, e: WatchEvent, evs: seq<WatchEvent>)
    requires IsRelevant(e)
    requires CreatedByLabel in e.pod.labels && NameLabel in e.pod.labels
    requires FinishedContainer(e.pod).None?
    ensures Watch(st, [e] + evs).stoppedAt == Some(0)
    ensures Watch(st, [e] + evs).state.cursor == st.cursor
    ensures HasEntry(Watch(st, [e] + evs).state.cache, e.pod.labels[CreatedByLabel], e.pod.labels[NameLabel])
    ensures Total(Watch(st, [e] + evs).state.cache) == Total(st.cache)
  {
  }

  const SubjectTail := " jobs"

  const Outro :=
    "\n\n"
    + "If you requested 'filelog' for any of the jobs mentioned above, you may find "
    + "additional information about what happened in the associated log files. "
    + "Check them from Toolforge bastions as usual.\n"
    + "\n"
    + "You are receiving this email because:\n"
    + " 1) when the job was created, it was requested to send email notfications\n"
    + " 2) you are listed as tool maintainer for this tool, with your email associated\n"
    + "\n"
    + "Find help and more information in wikitech: https://wikitech.wikimedia.org/\n"
    + "\n"
    + "Thanks for your contributions to the wikimedia movement.\n"

  /** A job's section: its name, how many events follow, then one line per event. */
  function Section(job: string, events: seq<string>): string {
    "\n* Job '" + job + "' had " + NatToString(|events|) + " events:\n" + EventLines(events)
  }

  /** The sections of a user's jobs, in the dictionary's order. */
  function Sections(jobs: Jobs): string
    decreases |jobs|
  {
    if |jobs| == 0 then "" else Section(jobs[0].0, jobs[0].1) + Sections(jobs[1..])
  }

  /**
   * Legacy `compose_email`: the notification for one user's jobs. Its
   * address names the user: reading it back with the same configuration gives
   * the user again.
   */
  function ComposeEmail(cfg: map<string, string>, user: string, jobs: Jobs): (email: Email)
    requires HasAddressKeys(cfg)
    ensures UserOfAddress(cfg, email.address) == Some(user)
  {
    AddressRoundTrip(cfg, user);
    var body := Intro + Sections(jobs) + Outro;
    Email(Address(cfg, user), Subject(|jobs|, SubjectTail), body)
  }

  /**
   * The rest of the notification reads back too: the subject reports the
   * number of jobs, and the body opens with the greeting and closes with the
   * footer, word for word.
   */
  lemma ComposeEmailReadsBack(cfg: map<string, string>, user: string, jobs: Jobs)
    requires HasAddressKeys(cfg)
    ensures StartsWith(ComposeEmail(cfg, user, jobs).body, Intro)
    ensures EndsWith(ComposeEmail(cfg, user, jobs).body, Outro)
    ensures CountInSubject(ComposeEmail(cfg, user, jobs).subject, SubjectTail) == Some(|Keys(jobs)|)
  {
    SubjectRoundTrip(|jobs|, SubjectTail);
    var body := ComposeEmail(cfg, user, jobs).body;
    assert body == Intro + Sections(jobs) + Outro;
    assert body[..|Intro|] == Intro;
    assert body[|body| - |Outro|..] == Outro;
  }

  /** Legacy `compose_email` of each user's jobs, in dictionary order. */
  function ComposeAll(cfg: map<string, string>, users: EmailEvents): (emails: seq<Email>)
    requires HasAddressKeys(cfg)
    ensures |emails| == |users|
    decreases |users|
  {
    if |users| == 0 then []
    else
      var last := users[|users| - 1];
      ComposeAll(cfg, users[..|users| - 1]) + [ComposeEmail(cfg, last.0, last.1)]
  }

  /** Entry `i` of the composed list is the notification for entry `i` of the input. */
  lemma {:induction false} ComposeAllAt(cfg: map<string, string>, users: EmailEvents, i: nat)
    requires HasAddressKeys(cfg) && i < |users|
    ensures ComposeAll(cfg, users)[i] == ComposeEmail(cfg, users[i].0, users[i].1)
    decreases |users|
  {
    var k := |users| - 1;
    if i < k {
      ComposeAllAt(cfg, users[..k], i);
    }
  }

  /** `emailevents[user]` followed by `del emailevents[user]`: the user's jobs, and the dict without them. */
  function TakeUser(d: EmailEvents, user: string): (r: (Jobs, EmailEvents))
    requires Valid(d) && user in Keys(d)
    ensures Valid(r.1)
    ensures d[0].0 == user ==> r == (d[0].1, d[1..])
  {
    (Get(d, user).value, Remove(d, user))
  }

  /**
   * The loop body's dictionary work for the `n`-th user of the snapshot
   * `Keys(events)`, when the first `n` users are already deleted: read the
   * user's jobs, then delete the user.
   */
  method TakeNext(events: EmailEvents, n: nat, current: EmailEvents) returns (user: string, jobs: Jobs, rest: EmailEvents)
    requires n < |events| && current == events[n..] && Valid(current)
    ensures (user, jobs) == events[n]
    ensures rest == events[n + 1..] && Valid(rest)
  {
    user := Keys(events)[n];
    KeysAt(events, n);
    assert current[0] == events[n];
    assert current[1..] == events[n + 1..];
    var taken := TakeUser(current, user);
    jobs, rest := taken.0, taken.1;
  }

  /** The loop body's composing for the `n`-th user: queue that user's notification behind the earlier ones. */
  method ComposeNext(cfg: map<string, string>, events: EmailEvents, n: nat, queue: seq<Email>, current: seq<Email>)
    returns (next: seq<Email>)
    requires HasAddressKeys(cfg) && n < |events|
    requires current == queue + ComposeAll(cfg, events[..n])
    ensures next == queue + ComposeAll(cfg, events[..n + 1])
  {
    assert events[..n + 1][..n] == events[..n];
    next := current + [ComposeEmail(cfg, events[n].0, events[n].1)];
  }

  /**
   * One cycle of the legacy `task_compose_emails`. It takes a snapshot of the
   * users, composes one notification per user in dictionary order onto the
   * back of the queue, and deletes each user as it goes. Afterwards the
   * dictionary is empty, and the queue grew by the number of users there
   * were at the start.
   */
  method ComposeCycle(cfg: map<string, string>, events: EmailEvents, queue: seq<Email>)
    returns (events': EmailEvents, queue': seq<Email>, added: nat, announced: bool)
    requires HasAddressKeys(cfg)
    requires Valid(events)
    ensures events' == []
    ensures queue' == queue + ComposeAll(cfg, events)
    ensures added == |Keys(events)|
    ensures announced <==> |events| > 0
  {
    var before := |queue|;
    var users := Keys(events);
    events' := events;
    queue' := queue;
    var n := 0;
    while n < |users|
      invariant n <= |users|
      invariant events' == events[n..]
      invariant Valid(events')
      invariant queue' == queue + ComposeAll(cfg, events[..n])
    {
      var user, jobs, rest := TakeNext(events, n, events');
      queue' := ComposeNext(cfg, events, n, queue, queue');
      events' := rest;
      n := n + 1;
    }
    assert events[..n] == events;
    added := |queue'| - before;
    announced := added > 0;
  }
}

=== FILE: options.dfy ===
/** The optional value used wherever the source reads a dictionary entry that may be missing. */
module Options {

  datatype Option<+T> = None | Some(value: T) {

    /** The carried value, or `default` when there is none (Python's `d.get(k, default)`). */
    function GetOr(default: T): T {
      match this
      case Some(v) => v
      case None => default
    }
  }
}

=== FILE: pods.dfy ===
/**
 * The slice of a Kubernetes pod watch event that the emailer reads.
 *
 * Only the fields the admission filter and the message builders touch are
 * kept; everything else of the API object is irrelevant here.
 */
module Pods {
  import opened Options

  /** `status.container_statuses[i].state.terminated`: how a container ended. */
  datatype Terminated = Terminated(
    startedAt: string,
    finishedAt: string,
    exitCode: int,
    reason: string,
    message: string)

  /**
   * One container status. Only the `terminated` sub-state is ever read;
   * `None` stands for a container that is still waiting or running.
   */
  datatype ContainerStatus = ContainerStatus(restartCount: nat, terminated: Option<Terminated>)

  /**
   * The pod object. `deletionTimestamp` is `None` unless the pod is being torn
   * down. `phase` is the raw phase string. An absent phase is any string
   * outside the known ones, which every check treats the same way.
   */
  datatype Pod = Pod(
    namespace: string,
    name: string,
    labels: map<string, string>,
    deletionTimestamp: Option<string>,
    phase: string,
    resourceVersion: string,
    containerStatuses: seq<ContainerStatus>)

  /** One item of the watch stream: the change type (`"ADDED"`, `"MODIFIED"`, ...) and the pod. */
  datatype WatchEvent = WatchEvent(eventType: string, pod: Pod)

  const ToolforgeLabel := "toolforge"
  const ManagedByLabel := "app.kubernetes.io/managed-by"
  const ComponentLabel := "app.kubernetes.io/component"
  const CreatedByLabel := "app.kubernetes.io/created-by"
  const NameLabel := "app.kubernetes.io/name"
  const EmailsLabel := "jobs.toolforge.org/emails"

  /** `labels.get(key, default)`. */
  function Label(p: Pod, key: string, default: string): string {
    if key in p.labels then p.labels[key] else default
  }

  /** The same event with one label set to `value`. */
  function WithLabel(e: WatchEvent, key: string, value: string): WatchEvent {
    e.(pod := e.pod.(labels := e.pod.labels[key := value]))
  }
}

=== FILE: send.dfy ===
/**
 * The rate-limited dispatcher (emailer/send.py `task_send_emails`).
 *
 * The loop pops notifications off the front of the queue and hands each to
 * the mail transport. It counts them, and it sleeps either when the queue
 * is empty or when the count reaches the configured maximum. The counter is
 * reset before every sleep. Delivery is outside this model: a dispatched
 * notification is simply reported, and the transport never touches the
 * queue. Each loop pass is one atomic `Step`. A `Burst` is the passes
 * between two sleeps, with the maximum read once for the whole burst.
 */
module Send {
  import opened Options

  /** The queue of pending notifications, front first, and the `sent` counter. */
  datatype Dispatcher<M> = Dispatcher(queue: seq<M>, sent: nat)

  /** The outcome of one pass: the new state, what was handed to the transport, whether the loop now sleeps. */
  datatype Tick<M> = Tick(next: Dispatcher<M>, dispatched: Option<M>, sleeps: bool)

  /** One pass of the loop body with `max` the value of `task_send_emails_max`. */
  function Step<M>(d: Dispatcher<M>, max: int): (t: Tick<M>)
    ensures t.dispatched.None? <==> |d.queue| == 0
    ensures |d.queue| == 0 ==> t.sleeps && t.next == Dispatcher([], 0)
    ensures |d.queue| > 0 ==> t.dispatched == Some(d.queue[0]) && t.next.queue == d.queue[1..]
    ensures |d.queue| > 0 ==> (t.sleeps <==> d.sent + 1 >= max)
    ensures t.sleeps ==> t.next.sent == 0
    ensures !t.sleeps ==> t.next.sent == d.sent + 1 && t.next.sent < max
  {
    if |d.queue| == 0 then Tick(Dispatcher(d.queue, 0), None, true)
    else
      var sent := d.sent + 1;
      if sent >= max then Tick(Dispatcher(d.queue[1..], 0), Some(d.queue[0]), true)
      else Tick(Dispatcher(d.queue[1..], sent), Some(d.queue[0]), false)
  }

  /** How many more passes a burst may dispatch after `sent` have gone out: at least one. */
  function Quota(sent: nat, max: int): nat {
    if max - sent > 1 then max - sent else 1
  }

  function Min(a: nat, b: nat): nat {
    if a < b then a else b
  }

  /** A pass that does not sleep uses up one unit of a quota greater than one. */
  lemma QuotaShrinks(sent: nat, max: int)
    requires sent + 1 < max
    ensures Quota(sent, max) > 1
    ensures Quota(sent + 1, max) == Quota(sent, max) - 1
  {
  }

  /** Splitting a sequence at `n` splits its tail at `n - 1`. */
  lemma SplitAfterHead<M>(q: seq<M>, n: nat)
    requires 0 < n <= |q|
    ensures q[..n] == [q[0]] + q[1..][..n - 1]
    ensures q[n..] == q[1..][n - 1..]
  {
  }

  /** What a burst handed to the transport, and the state it left behind. */
  datatype BurstResult<M> = BurstResult(dispatched: seq<M>, after: Dispatcher<M>)

  /**
   * The passes from one wake-up to the next sleep. The queue is split: its
   * first `Min(|queue|, Quota(sent, max))` notifications are dispatched in
   * queue order, the rest stay queued in order, and the counter is back at 0.
   */
  function Burst<M>(d: Dispatcher<M>, max: int): (r: BurstResult<M>)
    ensures var n := Min(|d.queue|, Quota(d.sent, max));
      && r.dispatched == d.queue[..n]
      && r.after.queue == d.queue[n..]
      && r.after.sent == 0
    decreases |d.queue|
  {
    var t := Step(d, max);
    if t.sleeps then
      BurstResult(if t.dispatched.Some? then [t.dispatched.value] else [], t.next)
    else
      var rest := Burst(t.next, max);
      QuotaShrinks(d.sent, max);
      SplitAfterHead(d.queue, Min(|d.queue|, Quota(d.sent, max)));
      BurstResult([t.dispatched.value] + rest.dispatched, rest.after)
  }

  /** A burst from a freshly reset counter sends `min(|queue|, max(max, 1))`. */
  lemma BurstFromReset<M>(queue: seq<M>, max: int)
    ensures |Burst(Dispatcher(queue, 0), max).dispatched| == Min(|queue|, if max > 1 then max else 1)
  {
  }

  /** With a maximum of 10 and 25 queued, one burst sends the first 10 and keeps the other 15 in order. */
  lemma TenOfTwentyFive<M>(queue: seq<M>)
    requires |queue| == 25
    ensures Burst(Dispatcher(queue, 0), 10).dispatched == queue[..10]
    ensures Burst(Dispatcher(queue, 0), 10).after == Dispatcher(queue[10..], 0)
    ensures |Burst(Dispatcher(queue, 0), 10).after.queue| == 15
  {
  }

  /** The notifications dispatched by bursts run back to back until the queue is empty. */
  function Drain<M>(d: Dispatcher<M>, max: int): seq<M>
    decreases |d.queue|
  {
    if |d.queue| == 0 then []
    else
      var b := Burst(d, max);
      b.dispatched + Drain(b.after, max)
  }

  /** How many bursts that takes. */
  function BurstCount<M>(d: Dispatcher<M>, max: int): nat
    decreases |d.queue|
  {
    if |d.queue| == 0 then 0 else 1 + BurstCount(Burst(d, max).after, max)
  }

  /** A burst from a reset counter splits the queue at its quota. */
  lemma BurstSplits<M>(queue: seq<M>, max: int)
    ensures var n := Min(|queue|, Quota(0, max));
      Burst(Dispatcher(queue, 0), max) == BurstResult(queue[..n], Dispatcher(queue[n..], 0))
  {
  }

  /** If the queue left after the first burst drains in order, so does the whole queue. */
  lemma DrainFirstBurst<M>(queue: seq<M>, max: int)
    requires |queue| > 0
    requires var n := Min(|queue|, Quota(0, max));
      Drain(Dispatcher(queue[n..], 0), max) == queue[n..]
    ensures Drain(Dispatcher(queue, 0), max) == queue
  {
    var n := Min(|queue|, Quota(0, max));
    var b := Burst(Dispatcher(queue, 0), max);
    BurstSplits(queue, max);
    assert Drain(Dispatcher(queue, 0), max) == b.dispatched + Drain(b.after, max);
    assert b.dispatched + Drain(b.after, max) == queue[..n] + queue[n..];
    assert queue == queue[..n] + queue[n..];
  }

  /** Bursts hand over every queued notification exactly once and in queue order; none is requeued. */
  lemma {:induction false} DrainInOrder<M>(queue: seq<M>, max: int)
    ensures Drain(Dispatcher(queue, 0), max) == queue
    decreases |queue|
  {
    if |queue| > 0 {
      DrainInOrder(queue[Min(|queue|, Quota(0, max))..], max);
      DrainFirstBurst(queue, max);
    }
  }

  /** The number of rounds needed to take `len` items away `limit` at a time. */
  function Rounds(len: nat, limit: nat): nat
    requires limit > 0
    decreases len
  {
    if len == 0 then 0 else 1 + Rounds(len - Min(len, limit), limit)
  }

  /** That number is `ceil(len / limit)`: the fewest rounds of `limit` with room for `len`. */
  lemma {:induction false} RoundsIsCeiling(len: nat, limit: nat)
    requires limit > 0
    ensures Rounds(len, limit) == 0 <==> len == 0
    ensures len <= Rounds(len, limit) * limit
    ensures Rounds(len, limit) > 0 ==> (Rounds(len, limit) - 1) * limit < len
    decreases len
  {
    if len > 0 {
      var left := len - Min(len, limit);
      RoundsIsCeiling(left, limit);
      var rest := Rounds(left, limit);
      assert (rest + 1) * limit == rest * limit + limit;
      if rest > 0 {
        assert rest * limit == (rest - 1) * limit + limit;
      }
    }
  }

  /** A queue of `n` takes `Rounds(n, max(max, 1))` bursts. */
  lemma {:induction false} DrainBurstCount<M>(queue: seq<M>, max: int)
    ensures BurstCount(Dispatcher(queue, 0), max) == Rounds(|queue|, Quota(0, max))
    decreases |queue|
  {
    if |queue| > 0 {
      var n := Min(|queue|, Quota(0, max));
      assert Burst(Dispatcher(queue, 0), max).after == Dispatcher(queue[n..], 0);
      DrainBurstCount(queue[n..], max);
    }
  }
}

=== FILE: text.dfy ===
/**
 * Decimal rendering of numbers as done by Python f-strings (`f"{n}"`), together with
 * the parser that inverts it, and the prefix/suffix tests used on strings.
 */
module Text {
  import opened Options

  predicate StartsWith(s: string, prefix: string) {
    |prefix| <= |s| && s[..|prefix|] == prefix
  }

  predicate EndsWith(s: string, suffix: string) {
    |suffix| <= |s| && s[|s| - |suffix|..] == suffix
  }

  predicate IsDigit(c: char) {
    '0' <= c <= '9'
  }

  predicate AllDigits(s: string) {
    forall i :: 0 <= i < |s| ==> IsDigit(s[i])
  }

  function DigitChar(d: nat): (c: char)
    requires d < 10
    ensures IsDigit(c)
    ensures (c as int) - ('0' as int) == d
  {
    ('0' as int + d) as char
  }

  function DigitValue(c: char): nat
    requires IsDigit(c)
  {
    (c as int) - ('0' as int)
  }

  /** `str(n)` for a non-negative Python int: the shortest decimal numeral of `n`. */
  function NatToString(n: nat): (s: string)
    ensures |s| > 0 && AllDigits(s)
    ensures |s| > 1 ==> s[0] != '0'
    decreases n
  {
    if n < 10 then [DigitChar(n)] else NatToString(n / 10) + [DigitChar(n % 10)]
  }

  /** `str(i)` for any Python int: a minus sign in front of the magnitude when negative. */
  function IntToString(i: int): (s: string)
    ensures |s| > 0
    ensures i < 0 <==> s[0] == '-'
  {
    if i < 0 then "-" + NatToString(-i) else NatToString(i)
  }

  /** The value of a numeral, most significant digit first. */
  function DigitsValue(s: string): nat
    requires AllDigits(s)
    decreases |s|
  {
    if |s| == 0 then 0 else DigitsValue(s[..|s| - 1]) * 10 + DigitValue(s[|s| - 1])
  }

  /** A numeral as `str` writes it: digits only, and no leading zero unless it is "0" itself. */
  predicate Canonical(s: string) {
    |s| > 0 && AllDigits(s) && (|s| == 1 || s[0] != '0')
  }

  /** Reads a numeral written by `str`; anything else, zero-padded numerals included, is not a number. */
  function ParseNat(s: string): Option<nat> {
    if Canonical(s) then Some(DigitsValue(s)) else None
  }

  /** Reading back what `NatToString` wrote gives the number again. */
  lemma {:induction false} ParseNatToString(n: nat)
    ensures ParseNat(NatToString(n)) == Some(n)
    decreases n
  {
    var s := NatToString(n);
    if n >= 10 {
      ParseNatToString(n / 10);
      assert s[..|s| - 1] == NatToString(n / 10);
      assert DigitValue(s[|s| - 1]) == n % 10;
      assert DigitsValue(s) == (n / 10) * 10 + n % 10;
    } else {
      assert DigitsValue(s) == DigitsValue(s[..0]) * 10 + DigitValue(s[0]);
    }
  }

  /** The only text that reads as `n` is the one `NatToString` writes for it. */
  lemma {:induction false} ParseNatOnlyCanonical(s: string, n: nat)
    requires ParseNat(s) == Some(n)
    ensures NatToString(n) == s
    decreases |s|
  {
    var last := |s| - 1;
    if last == 0 {
      assert n == DigitsValue(s[..0]) * 10 + DigitValue(s[0]);
      assert NatToString(n) == [DigitChar(n)];
    } else {
      var s' := s[..last];
      var m := DigitsValue(s');
      assert ParseNat(s') == Some(m);
      ParseNatOnlyCanonical(s', m);
      assert m != 0;
      var d := DigitValue(s[last]);
      assert n == m * 10 + d;
      assert n / 10 == m && n % 10 == d;
      assert DigitChar(d) == s[last];
      assert s == s' + [s[last]];
    }
  }
}

=== FILE: watching.dfy ===
/**
 * The inner loop of `task_watch_pods`, shared by both versions of the emailer.
 *
 * For each streamed event the loop asks the admission filter and, for an
 * admitted event, caches it. Then it moves the resume cursor to the event's
 * resource version whether or not the event was admitted. If caching raises,
 * the exception leaves the loop, and so the task, before the cursor moves.
 * The stream itself is an input sequence. The filter and the caching step are
 * parameters, so that each version plugs in its own.
 */
module Watching {
  import opened Options
  import opened Pods
  import opened Batches

  /** What a caching step left behind, and whether it finished without raising. */
  datatype Processed = Processed(cache: EmailEvents, ok: bool)

  /** The loop's state: the shared cache and `last_seen_version`. */
  datatype WatchState = WatchState(cache: EmailEvents, cursor: string)

  /** Where a run of the loop ended: still watching, or dead at the event with index `stoppedAt`. */
  datatype Run = Run(state: WatchState, stoppedAt: Option<nat>)

  /** Consumes `evs` in order, starting from `st`. */
  function Consume(
    st: WatchState,
    evs: seq<WatchEvent>,
    admit: WatchEvent -> bool,
    process: (EmailEvents, WatchEvent) -> Processed): (r: Run)
    ensures r.stoppedAt.None? && |evs| > 0 ==> r.state.cursor == evs[|evs| - 1].pod.resourceVersion
    ensures |evs| == 0 ==> r == Run(st, None)
    ensures r.stoppedAt.Some? ==>
      var i := r.stoppedAt.value;
      && i < |evs|
      && admit(evs[i])
      && r.state.cursor == (if i == 0 then st.cursor else evs[i - 1].pod.resourceVersion)
    decreases |evs|
  {
    if |evs| == 0 then Run(st, None)
    else
      var e := evs[0];
      var cache' := if admit(e) then process(st.cache, e) else Processed(st.cache, true);
      if !cache'.ok then Run(WatchState(cache'.cache, st.cursor), Some(0))
      else
        var rest := Consume(WatchState(cache'.cache, e.pod.resourceVersion), evs[1..], admit, process);
        match rest.stoppedAt
        case None => rest
        case Some(i) => Run(rest.state, Some(i + 1))
  }

  /**
   * When whether a caching step raises depends on the event alone, the loop
   * dies at the first admitted event whose step raises, and keeps watching
   * exactly when no admitted event is such an event.
   */
  lemma {:induction false} ConsumeStopsAtFirstFailure(
    st: WatchState,
    evs: seq<WatchEvent>,
    admit: WatchEvent -> bool,
    process: (EmailEvents, WatchEvent) -> Processed,
    succeeds: WatchEvent -> bool)
    requires forall c: EmailEvents, e: WatchEvent :: process(c, e).ok == succeeds(e)
    ensures Consume(st, evs, admit, process).stoppedAt.None? <==>
      forall i :: 0 <= i < |evs| && admit(evs[i]) ==> succeeds(evs[i])
    ensures Consume(st, evs, admit, process).stoppedAt.Some? ==>
      var i := Consume(st, evs, admit, process).stoppedAt.value;
      !succeeds(evs[i]) && forall k :: 0 <= k < i && admit(evs[k]) ==> succeeds(evs[k])
    decreases |evs|
  {
    if |evs| > 0 {
      var e := evs[0];
      var p := if admit(e) then process(st.cache, e) else Processed(st.cache, true);
      if p.ok {
        ConsumeStopsAtFirstFailure(WatchState(p.cache, e.pod.resourceVersion), evs[1..], admit, process, succeeds);
        assert forall i :: 1 <= i < |evs| ==> evs[i] == evs[1..][i - 1];
      }
    }
  }

  /** The admitted events, in stream order. */
  function Admitted(evs: seq<WatchEvent>, admit: WatchEvent -> bool): (r: seq<WatchEvent>)
    ensures |r| <= |evs|
    ensures forall e :: e in r ==> e in evs && admit(e)
  {
    if |evs| == 0 then []
    else if admit(evs[0]) then [evs[0]] + Admitted(evs[1..], admit)
    else Admitted(evs[1..], admit)
  }

  /** A stream in which nothing is admitted contributes nothing. */
  lemma {:induction false} NoneAdmitted(evs: seq<WatchEvent>, admit: WatchEvent -> bool)
    requires forall i :: 0 <= i < |evs| ==> !admit(evs[i])
    ensures Admitted(evs, admit) == []
    decreases |evs|
  {
    if |evs| > 0 {
      assert !admit(evs[0]);
      NoneAdmitted(evs[1..], admit);
    }
  }

  /** Caches `evs` one after another, stopping at the first step that raises. */
  function ProcessAll(c: EmailEvents, evs: seq<WatchEvent>, process: (EmailEvents, WatchEvent) -> Processed): Processed
    decreases |evs|
  {
    if |evs| == 0 then Processed(c, true)
    else
      var p := process(c, evs[0]);
      if !p.ok then p else ProcessAll(p.cache, evs[1..], process)
  }

  /**
   * The cache the loop builds is the one obtained by caching just the admitted
   * events. The loop dies exactly when that does: skipped events leave no trace
   * in the cache.
   */
  lemma {:induction false} ConsumeCachesAdmitted(
    st: WatchState,
    evs: seq<WatchEvent>,
    admit: WatchEvent -> bool,
    process: (EmailEvents, WatchEvent) -> Processed)
    ensures Consume(st, evs, admit, process).state.cache == ProcessAll(st.cache, Admitted(evs, admit), process).cache
    ensures Consume(st, evs, admit, process).stoppedAt.None? <==> ProcessAll(st.cache, Admitted(evs, admit), process).ok
    decreases |evs|
  {
    if |evs| > 0 {
      var e := evs[0];
      if admit(e) {
        var p := process(st.cache, e);
        assert Admitted(evs, admit) == [e] + Admitted(evs[1..], admit);
        assert ([e] + Admitted(evs[1..], admit))[1..] == Admitted(evs[1..], admit);
        if p.ok {
          ConsumeCachesAdmitted(WatchState(p.cache, e.pod.resourceVersion), evs[1..], admit, process);
        }
      } else {
        ConsumeCachesAdmitted(WatchState(st.cache, e.pod.resourceVersion), evs[1..], admit, process);
      }
    }
  }
}
